=== FILE: README.md ===
# ESG marketing site: page logic in Dafny

This project models the decision logic of a single-page ESG marketing site written in
React. The page layout and markup are not modelled. What is modelled is the state held by
the page and its components, and the pure decisions taken on it:

- **App** (`app.dfy`): the page controller.
  - The window is classified as mobile, tablet or desktop.
  - The header hides on a downward scroll past a per-layout threshold and ignores small
    scroll jitter.
  - The pricing section is always on the landing page. A one-shot scroll latch, armed only
    for visitors, decides whether the page hands it the pricing reference. Nothing in the
    page reads that reference, so the latch has no visible effect.
  - There are login, logout and dashboard view transitions, and the dashboard is shown only
    to a logged-in user.
  - Section links compute a per-layout scroll target. A logged-in user is first sent back
    to the landing view, and the scroll to the section waits for a timer.
- **Translation** and **TranslationTables** (`translation.dfy`, `translation_tables.dfy`):
  the language provider.
  - It holds three constant tables (ru, en, kz) and the current language, which starts as
    ru.
  - `t` returns the current table's non-empty entry and otherwise falls back to the key.
  - `useLanguage` fails outside a provider.
  - The three tables are written out as data, section by section. Each table is proved to
    define exactly the same common key set and to hold only real translations.
- **Pricing** and **ShippedFeatures** (`pricing.dfy`, `shipped_features.dfy`): the pricing
  cards.
  - `GetPlanFeatures` is the probe loop. It reads `feature1`, `feature2`, … until a lookup
    falls back. The loop terminates because every successful probe consumes a fresh key of
    the finite table.
  - The probe returns the longest gap-free prefix of translated features.
  - With each shipped table, startup, quantum and enterprise show five features and
    avantgard shows six.
  - The colour and call-to-action choices are modelled too.
- **LoginForm** (`login_modal.dfy`): the login dialog.
  - It holds the tab, the login fields and their error line, and a map of registration
    fields.
  - Login succeeds only with the exact demo credentials. The dialog tells its owner
    "logged in", then "close".
  - On failure the translated error is shown and the fields are kept.
  - Editing one registration field changes only that field. Closing resets everything but
    the tab.
- **Diagnostics** (`diagnostics.dfy`): the service carousel.
  - It has six cards, and the second one is active at first.
  - A card click makes the card active only if the carousel handle is present and the card
    is enabled. The sixth card is the disabled one.
  - At most one card is drawn centred.
  - The action button says "coming soon" exactly on the disabled card.
- **HeaderMenu** (`header.dfy`): the header.
  - The owner's handlers are optional. Every mobile-menu action calls its handler if one is
    provided and always closes the menu.
  - The dashboard entry is listed only when logged in.
  - Exactly one way to navigate is on screen at any width.
  - The language option shown as current is always found, and picking an option makes it
    current.
- **Wrappers** and **Decimal** are helpers.
  - `Option` stands for JavaScript's `undefined` and `Result` for a thrown error.
  - `Decimal` renders a natural number as the template literal renders an integral
    number below 2^53. Its injectivity is what makes every probe of the feature loop ask
    for a new key.

The page's callbacks are modelled as follows:

- A call to an owner's handler is modelled as an emitted notification (`LoginForm`) or as
  the name of the handler called (`HeaderMenu`).
- React effects are modelled by what they leave behind. When an effect's dependencies
  change, the effect is re-run: the header tracker re-reads the scroll position, and the
  pricing latch's listener is re-subscribed unless someone is logged in.
- Browser quantities (widths, scroll offsets, element positions) are integer parameters.

## Model

| member | source | states |
|---|---|---|
| App.Classify | src/App.tsx:28-36 | widths below 640 are mobile, 640 to 1023 tablet, 1024 and up desktop, each stated as an if-and-only-if |
| App.ClassifyMonotone | src/App.tsx:28-36 | a wider window never gets a smaller layout |
| App.LayoutTablesMonotone | src/App.tsx:53-108 | the hide threshold (30/60/100), the noise band (3/6/10) and the pricing latch's multiplier (1.0/1.3/1.5) all grow with the layout |
| App.HeaderStep | src/App.tsx:53-76 | a move smaller than the noise band changes nothing; otherwise the position is recorded and the header is hidden iff the move is downward and past the threshold; a clear upward move, or any recorded position no deeper than the threshold, shows it |
| App.HeaderRunHidesOnlyPastThreshold | src/App.tsx:65-76 | within one layout, over any series of scroll samples, a hidden header always remembers a position deeper than that layout's threshold |
| App.HeaderRunTracksLatest | src/App.tsx:65-76 | after any non-empty series of samples the remembered position is within the noise band of the latest sample |
| App.ScrollsRunHeader | src/App.tsx:44-91 | within one layout the page's header after a series of scroll samples is the tracker run over those samples, so a hidden header remembers a position past the layout's threshold |
| App.PricingScroll | src/App.tsx:99-108 | a subscribed listener attaches the pricing reference and unsubscribes exactly when scrollY exceeds innerHeight times 1.0/1.3/1.5; an attached reference stays attached |
| App.Mount | src/App.tsx:12-17 | the mounted page is logged out, on the landing view, with the modal closed, the header shown, the layout classified from the width, and the pricing reference detached with its latch listener armed |
| App.Step | src/App.tsx:28-136 | the listener is never armed while logged in; login state changes only by login success or logout; the pricing reference is detached only by logout and attached only on a scroll past the latch mark; login success shows the dashboard, logout the landing page without the pricing reference, the dashboard button changes only the view; a scroll sample applies the header step and the pricing latch step at the current layout; a resize that keeps the layout changes nothing, and one that changes it re-reads the header's position and re-arms the latch listener iff nobody is logged in |
| App.RunPreservesInv | src/App.tsx:92-113 | in every reachable state the latch listener is unsubscribed while someone is logged in |
| App.LoggedInOnlyAfterLogin | src/App.tsx:123-132 | nobody is logged in after a series of events unless a login success is among them |
| App.LoggedInScrollKeepsPricing | src/App.tsx:92-113 | while logged in, scrolling never changes the pricing latch |
| App.LogoutRearmsPricing | src/App.tsx:128-132 | logging out detaches the pricing reference and re-arms the latch listener |
| App.Render | src/App.tsx:270-281 | the dashboard is rendered iff the view is the dashboard and the user is logged in; the landing page gets the pricing reference iff the latch has fired |
| App.LoginAndLogoutPages | src/App.tsx:123-136 | after login success the dashboard shows, after logout the landing page without the pricing reference, and the dashboard button alone never shows the dashboard to a visitor |
| App.SectionTarget | src/App.tsx:186-193 | the target leaves exactly the layout's clearance (50/70/80 px) above the section's document offset |
| App.SectionTargetByDocumentOffset | src/App.tsx:186-193 | two targets in one layout agree iff the sections sit at the same document offset, however the page is scrolled |
| App.SectionTargetByLayout | src/App.tsx:169-193 | a larger layout scrolls the same section to a point strictly higher up the page |
| App.SectionScroll | src/App.tsx:185-199 | a mounted section is scrolled to with that clearance; an unmounted one causes no scroll |
| App.Navigate | src/App.tsx:165-200 | a logged-in user is switched to the landing view and the scroll to the clicked section is deferred by 100 ms with the click's layout; a visitor is scrolled at once; nothing else changes |
| App.Fire | src/App.tsx:138-183 | a fired top scroll goes to 0; a fired section scroll goes to the section as mounted at that moment with the clearance of the layout it was requested in; immediate requests are unchanged and nothing stays deferred |
| App.DeferredNavigationLands | src/App.tsx:166-183 | the deferred scroll, once fired, lands at the section's rect top plus pageYOffset at firing time minus the click layout's clearance, exactly where a visitor's immediate scroll would; an unmounted section is not scrolled to |
| App.GoHome | src/App.tsx:138-162 | the logo and hero switch to the landing view and request a scroll that, when it fires after 100 ms, goes to the top |
| App.NavigationShowsLanding | src/App.tsx:138-200 | after a section link or the logo the landing page is on screen |
| Translation.Lookup | src/contexts/LanguageContextNew.tsx:244-247 | a present non-empty entry is returned, anything else falls back to the key; the result is empty only for the empty key |
| Translation.FallsBackIff | src/contexts/LanguageContextNew.tsx:244-247 | a lookup returns its own key iff the entry is absent, empty or equal to the key |
| Translation.FallsBackOnlyWhenAbsent | src/contexts/LanguageContextNew.tsx:244-247 | on a table of real translations a lookup falls back iff the key is absent |
| Translation.InitialProvider | src/contexts/LanguageContextNew.tsx:242 | the provider starts in language "ru" with the given tables |
| Translation.T | src/contexts/LanguageContextNew.tsx:244-247 | `t` reads the current language's table and falls back to the key |
| Translation.SetLanguage | src/contexts/LanguageContextNew.tsx:241-251 | the state setter makes the given language current and keeps the tables |
| Translation.SetLanguageOnlySwitchesTable | src/contexts/LanguageContextNew.tsx:241-247 | switching language keeps the tables, and `t` afterwards is the new language's lookup whatever language came before |
| Translation.UseLanguage | src/contexts/LanguageContextNew.tsx:256-261 | outside a provider the hook fails with its message; inside it yields the provider |
| TranslationTables.RuKeys | src/contexts/LanguageContextNew.tsx:13-86 | the ru table defines exactly the common key set |
| TranslationTables.EnKeys | src/contexts/LanguageContextNew.tsx:88-161 | the en table defines exactly the common key set |
| TranslationTables.KzKeys | src/contexts/LanguageContextNew.tsx:163-236 | the kz table defines exactly the common key set |
| TranslationTables.RuFallsBackIffAbsent | src/contexts/LanguageContextNew.tsx:13-86 | with the ru table a key falls back iff it is not a common key |
| TranslationTables.EnFallsBackIffAbsent | src/contexts/LanguageContextNew.tsx:88-161 | with the en table a key falls back iff it is not a common key, so fallback does not depend on the language |
| TranslationTables.KzFallsBackIffAbsent | src/contexts/LanguageContextNew.tsx:163-236 | with the kz table a key falls back iff it is not a common key |
| Pricing.ExactlyOnePopular | src/components/PricingSection.tsx:11-36 | exactly one plan is popular, the second, avantgard |
| Pricing.FeatureKey | src/components/PricingSection.tsx:41 | the probed key is `pricing.plans.<plan>.feature` followed by the decimal numeral of the index |
| Pricing.FeatureKeyReadsBack | src/components/PricingSection.tsx:41 | the digits after the key's prefix read back as the index |
| Pricing.FeatureKeyInjective | src/components/PricingSection.tsx:41 | different feature indexes give different keys |
| Pricing.GetPlanFeatures | src/components/PricingSection.tsx:38-46 | the result holds the translations of features 1..n in order, each present, and feature n+1 falls back; n never exceeds the table's size |
| Pricing.MissingFeatureSuppressesLater | src/components/PricingSection.tsx:41-44 | a missing feature k ends the list before k, even if later features exist |
| Pricing.FeaturesAreTranslations | src/components/PricingSection.tsx:41-44 | no listed feature is the key it was looked up under |
| Pricing.FeatureListUnique | src/components/PricingSection.tsx:38-46 | the feature list of a plan in a table is unique |
| Pricing.FeatureCountExact | src/components/PricingSection.tsx:38-46 | with features 1..n translated and n+1 absent, the list has exactly n entries |
| Pricing.GetCardBgColor | src/components/PricingSection.tsx:48-51 | the purple background iff popular, the card background otherwise |
| Pricing.CardBgIgnoresColor | src/components/PricingSection.tsx:48-51 | the card background does not depend on the colour |
| Pricing.GetIconBgColor | src/components/PricingSection.tsx:53-61 | the four known colours map to their classes and any other colour to "bg-muted" |
| Pricing.IconBgDistinct | src/components/PricingSection.tsx:53-61 | distinct known colours get distinct icon backgrounds |
| Pricing.IconClass | src/components/PricingSection.tsx:99-101 | the popular card's icon uses the translucent white class, the others their colour's class |
| Pricing.ShippedIconClasses | src/components/PricingSection.tsx:11-36 | on the four shipped plans only avantgard gets the translucent white tile, none gets "bg-muted", and no two cards share a tile class |
| Pricing.ShippedPlansHaveKnownColors | src/components/PricingSection.tsx:11-36 | no shipped plan falls through to "bg-muted" |
| Pricing.CtaKey | src/components/PricingSection.tsx:156 | the button key is "common.contact" iff the plan is enterprise, "common.choose_plan" otherwise |
| Pricing.ShippedPlanCtas | src/components/PricingSection.tsx:11-36 | among the four shipped plans only the fourth, enterprise, shows "common.contact"; the others show "common.choose_plan" |
| Pricing.CtaLabel | src/components/PricingSection.tsx:156 | the button label is `t` of "common.contact" on the enterprise card and of "common.choose_plan" elsewhere |
| ShippedFeatures.TableLacksFinalProbes | src/contexts/LanguageContextNew.tsx:39-74 | the probe after each plan's last feature (startup 6, avantgard 7, quantum 6, enterprise 6) is not a common key |
| ShippedFeatures.TableListsPlans | src/contexts/LanguageContextNew.tsx:39-74 | the common keys include features 1 to 5 of startup, quantum and enterprise and 1 to 6 of avantgard |
| ShippedFeatures.FeatureCountsOnListedKeys | src/components/PricingSection.tsx:38-46 | on any table of real translations listing those features and lacking the final probes, the popular plan shows six features and the others five |
| ShippedFeatures.RuFeatureCounts | src/contexts/LanguageContextNew.tsx:42-74 | with the ru table, avantgard shows six features and the other plans five |
| ShippedFeatures.EnFeatureCounts | src/contexts/LanguageContextNew.tsx:117-149 | with the en table, avantgard shows six features and the other plans five |
| ShippedFeatures.KzFeatureCounts | src/contexts/LanguageContextNew.tsx:192-224 | with the kz table, avantgard shows six features and the other plans five |
| ShippedFeatures.CtaKeysAreCommon | src/contexts/LanguageContextNew.tsx:77-78 | both call-to-action keys are common keys |
| ShippedFeatures.CtaLabelsTranslate | src/components/PricingSection.tsx:156 | with a table of the common key set whose entries translate, every card's button shows that table's entry for its key, never the bare key |
| LoginForm.InitialForm | src/components/LoginModal.tsx:18-35 | the dialog opens on the login tab with every field empty and exactly the ten registration fields |
| LoginForm.RegisterFieldsDistinct | src/components/LoginModal.tsx:24-35 | the ten registration field names are distinct |
| LoginForm.HandleLogin | src/components/LoginModal.tsx:37-50 | success iff the email and password are exactly the demo ones; success notifies login then close and empties both fields; failure keeps them and shows `t("auth.invalidCredentials")`; the error is empty iff the attempt succeeded; tab and registration are kept |
| LoginForm.FailedLoginIdempotent | src/components/LoginModal.tsx:37-50 | submitting wrong credentials twice gives the same state as once |
| LoginForm.HandleRegisterChange | src/components/LoginModal.tsx:52-57 | the named field takes the value, every other field keeps its text, nothing else in the form changes |
| LoginForm.RegisterChangeKeepsFields | src/components/LoginModal.tsx:52-57 | editing one of the ten fields keeps the form's field set |
| LoginForm.HandleClose | src/components/LoginModal.tsx:59-77 | closing notifies the owner and returns the initial form, except that the tab is kept |
| LoginForm.CloseForgetsInput | src/components/LoginModal.tsx:59-77 | two forms on the same tab close to the same state, and closing is idempotent |
| LoginForm.SuccessKeepsRegistration | src/components/LoginModal.tsx:42-46 | a successful login resets the login fields like a close but keeps the registration form |
| LoginForm.DemoCredentialsLogIn | src/components/LoginModal.tsx:42 | typing the demo credentials into a fresh dialog and submitting logs in |
| LoginForm.SelectTab | src/components/LoginModal.tsx:98 | the tab buttons change the tab and nothing else |
| LoginForm.SetEmail | src/components/LoginModal.tsx:143 | typing an email changes that field and nothing else |
| LoginForm.SetPassword | src/components/LoginModal.tsx:158 | typing a password changes that field and nothing else |
| LoginForm.InvalidCredentialsNotATableKey | src/contexts/LanguageContextNew.tsx:13-86 | "auth.invalidCredentials" is not a common key |
| LoginForm.ShippedTablesShowRawErrorKey | src/components/LoginModal.tsx:48 | with a table of the common key set, a failed attempt shows the raw key "auth.invalidCredentials" as its error |
| Diagnostics.CardFlags | src/components/DiagnosticsSection.tsx:21-120 | six cards; only the sixth is disabled and only the second popular |
| Diagnostics.FeatureKeys | src/components/DiagnosticsSection.tsx:28-34 | a card shows its feature count of keys, numbered from 1 |
| Diagnostics.FeatureKeyDetermines | src/components/DiagnosticsSection.tsx:28-34 | for dot-free slugs, two equal feature keys have the same slug and the same feature number |
| Diagnostics.ShippedSlugs | src/components/DiagnosticsSection.tsx:21-120 | the six card slugs are dot-free and pairwise distinct |
| Diagnostics.ShippedFeatureKeysDistinct | src/components/DiagnosticsSection.tsx:21-120 | no two features shown in the carousel, within a card or across cards, share a translation key |
| Diagnostics.InitialCarousel | src/components/DiagnosticsSection.tsx:19 | the second card, popular and enabled, is active before the carousel reports in |
| Diagnostics.HandleCardClick | src/components/DiagnosticsSection.tsx:122-127 | without the carousel handle or on a disabled card nothing changes; with the handle an enabled card becomes active and is scrolled to; an index past the cards is an error |
| Diagnostics.HandleApiChange | src/components/DiagnosticsSection.tsx:129-135 | a new handle's selected snap becomes active; a withdrawn handle changes only the handle |
| Diagnostics.HandleSelect | src/components/DiagnosticsSection.tsx:138-140 | a select notification makes its snap active |
| Diagnostics.ActiveFollowsLastSnap | src/components/DiagnosticsSection.tsx:129-140 | once a handle has arrived, after any series of select notifications the active card is the snap reported last |
| Diagnostics.CentredCards | src/components/DiagnosticsSection.tsx:169 | the centred cards are exactly the in-range active index, so at most one |
| Diagnostics.CardButton | src/components/DiagnosticsSection.tsx:239-246 | the button is disabled iff the card is, and labelled "coming soon" exactly then, "learn more" otherwise |
| Diagnostics.ShippedCardButtons | src/components/DiagnosticsSection.tsx:104-120 | among the six cards the button is disabled iff a click cannot activate the card, and says "coming soon" only on the sixth |
| Diagnostics.ClicksNeverActivateDisabled | src/components/DiagnosticsSection.tsx:122-127 | no series of card clicks makes the disabled card active |
| Diagnostics.SelectCanActivateDisabled | src/components/DiagnosticsSection.tsx:138-140 | a select notification can make the disabled card active |
| HeaderMenu.CallIfProvided | src/components/Header.tsx:76-81 | the handler is called once if provided and never otherwise |
| HeaderMenu.HandleMobileNavigation | src/components/Header.tsx:76-81 | a mobile link calls its handler if provided and always closes the menu |
| HeaderMenu.HandleMobileLogin | src/components/Header.tsx:83-88 | the mobile login button calls the login handler if provided and closes the menu |
| HeaderMenu.HandleMobileLogout | src/components/Header.tsx:90-95 | the mobile logout button calls the logout handler if provided and closes the menu |
| HeaderMenu.NavEntries | src/components/Header.tsx:110-143 | the dashboard entry is listed iff logged in, followed by the four section links |
| HeaderMenu.EntryHandlersDistinct | src/components/Header.tsx:111-142 | each entry calls its own handler and none calls login or logout |
| HeaderMenu.ClickDesktopEntry | src/components/Header.tsx:110-143 | a desktop entry calls its handler if provided and leaves the mobile menu alone |
| HeaderMenu.MobileEntryMatchesDesktop | src/components/Header.tsx:176-212 | a mobile entry calls the same handler as its desktop twin and also closes the menu |
| HeaderMenu.ExactlyOneNavigation | src/components/Header.tsx:110-148 | at every width exactly one of the desktop bar and the menu button shows; logging in never reveals the bar where it was hidden |
| HeaderMenu.MobileAccountBlock | src/components/Header.tsx:288-320 | the sheet shows the user card with logout iff logged in, the login button otherwise |
| HeaderMenu.AccountBlockMatchesNav | src/components/Header.tsx:288-320 | the sheet offers logout iff it lists the dashboard, and its button calls only the handler matching the login state |
| HeaderMenu.Find | src/components/Header.tsx:73 | the first option with the code, or none when no option has it |
| HeaderMenu.OptionCodesMatchLanguages | src/components/Header.tsx:67-71 | every language has its option and no two options share a code |
| HeaderMenu.CurrentLanguageDefined | src/components/Header.tsx:67-73 | the current language's option is always found and is the only one with that code |
| HeaderMenu.CurrentLanguage | src/components/Header.tsx:73 | the displayed option carries the code; it is missing only for a code other than ru, en and kz |
| HeaderMenu.ChooseLanguage | src/components/Header.tsx:266-270 | picking a language option switches the provider to it, keeps the tables, and makes that option the current one |
| Decimal.NatToString | src/components/PricingSection.tsx:41 | the rendering of `${featureIndex}` is a non-empty string of decimal digits, one digit exactly for indexes below 10, ending in the index's last digit |
| Decimal.ValueOfNatToString | src/components/PricingSection.tsx:41 | reading back the rendered index gives the index |
| Decimal.NatToStringInjective | src/components/PricingSection.tsx:41 | different indexes render differently |

## Left out

- The components import `src/contexts/LanguageContext`, which is not part of this model. Their `t` is modelled as the lookup of the provider defined in `LanguageContextNew.tsx`.
- `ThemeContext` and the theme toggle are not part of this model. The toggle has no logic beyond flipping a theme.
- DOM and timing plumbing is left out: event subscription and removal, the animation-frame throttle, `setTimeout`, smooth scrolling and `getBoundingClientRect`. Positions and sizes are parameters. A delayed scroll is a request carrying its delay, and `App.Fire` resolves it with the positions read when the timer fires.
- App.PricingScroll: the multipliers 1.3 and 1.5 are compared exactly (`10*scrollY > 13*innerHeight`), so the rounding of JavaScript's floating-point product is not modelled.
- App.Step: the pricing latch's flag only decides whether `LandingPage` receives the pricing reference, and nothing reads that reference, so the model does not claim the flag shows or hides anything.
- App.Step, App.HeaderStep: scroll positions, rect tops and `pageYOffset` are integers. Browsers report them as fractional doubles, which the model does not represent.
- App.Step: a scroll event stands for one sample taken by the header's animation-frame callback, and the same sample is fed to the pricing latch's listener. That listener is not throttled in the page, so it also sees the scroll positions the header's throttle drops; the model gives it only the sampled positions.
- JavaScript object keys inherited from the prototype (such as "constructor") are not modelled. A table here is a finite map and has only its own keys.
- TranslationTables.RuFallsBackIffAbsent: language independence is stated per table, against the shared key set, and not as one lemma over the provider's three tables. It follows from the three per-table facts.
- Diagnostics.HandleSelect: requires the carousel handle, because the select listener is registered only once a handle has arrived. The carousel library's own snapping is not modelled.
- The carousel library, the dialog, sheet, dropdown and select primitives are foreign code. They are reduced to the notifications the components receive.
- The registration form's "create account" button has no handler, so there is no registration submission to model. Native form submission and the browser's validation of the login inputs are not modelled: neither the `required` check nor the `type="email"` format check, both of which stop an invalid submission before `handleLogin` runs.
- The action button's handler only writes to the console, so it is not modelled.
- The decorative background images per layout are presentational and are not modelled.
- Pricing.GetPlanFeatures: the probe index is an unbounded natural. In JavaScript it is a double, exact only up to 2^53 and rendered in exponent notation from 10^21. The model bounds the list by the table's size instead, so the index never gets near either limit.
- Icons, texts, class strings and the static sections (hero, stats, news, contacts and others) have no decision logic.

=== FILE: app.dfy ===
/** The top-level page controller: screen-size classification, the header's
    hide-on-scroll tracker, the one-shot latch that attaches the pricing section's
    reference, the login and view state, and scrolling to a section. The pricing
    section itself is always on the landing page; only whether the page hands it the
    reference depends on the latch. Pixel quantities are integers; the latch multipliers
    1.0, 1.3 and 1.5 are written in tenths. */
module App {
  import opened Wrappers

  /** The three layouts the page distinguishes. */
  datatype ScreenSize = Mobile | Tablet | Desktop

  /** Position of a size in the order mobile < tablet < desktop. */
  function Rank(s: ScreenSize): nat
  {
    match s
    case Mobile => 0
    case Tablet => 1
    case Desktop => 2
  }

  const TabletMinWidth := 640
  const DesktopMinWidth := 1024

  /** The resize handler's classification of `window.innerWidth`. */
  function Classify(width: int): (s: ScreenSize)
    ensures s == Mobile <==> width < TabletMinWidth
    ensures s == Tablet <==> TabletMinWidth <= width < DesktopMinWidth
    ensures s == Desktop <==> DesktopMinWidth <= width
  {
    if width < 640 then Mobile else if width < 1024 then Tablet else Desktop
  }

  /** A wider window never yields a smaller layout. */
  lemma ClassifyMonotone(w1: int, w2: int)
    requires w1 <= w2
    ensures Rank(Classify(w1)) <= Rank(Classify(w2))
  {
  }

  /** Scroll depth (px) past which a downward scroll hides the header. */
  function HideThreshold(s: ScreenSize): (t: nat)
    ensures t > 0
  {
    match s
    case Mobile => 30
    case Tablet => 60
    case Desktop => 100
  }

  /** Scroll movements smaller than this (px) are ignored as jitter. */
  function NoiseBand(s: ScreenSize): (n: nat)
    ensures 0 < n < HideThreshold(s)
  {
    match s
    case Mobile => 3
    case Tablet => 6
    case Desktop => 10
  }

  /** The multiple of the window height, in tenths, past which the pricing latch fires. */
  function AttachTenths(s: ScreenSize): (m: nat)
    ensures 10 <= m <= 15
  {
    match s
    case Mobile => 10
    case Tablet => 13
    case Desktop => 15
  }

  /** Room (px) left above a section scrolled into view; the source's offset is its negation. */
  function SectionClearance(s: ScreenSize): (c: nat)
    ensures 50 <= c <= 80
  {
    match s
    case Mobile => 50
    case Tablet => 70
    case Desktop => 80
  }

  /** The scroll listeners' per-layout quantities grow with the layout (the section
      clearance is compared in `SectionTargetByLayout`). */
  lemma LayoutTablesMonotone(a: ScreenSize, b: ScreenSize)
    requires Rank(a) <= Rank(b)
    ensures HideThreshold(a) <= HideThreshold(b)
    ensures NoiseBand(a) <= NoiseBand(b)
    ensures AttachTenths(a) <= AttachTenths(b)
  {
  }

  function Abs(x: int): nat
  {
    if x < 0 then -x else x
  }

  // ---------------------------------------------------------------------------
  // Header visibility

  /** The header listener's state: whether the header shows, and the scroll
      position of the last movement it acted on. */
  datatype HeaderTracker = HeaderTracker(visible: bool, lastScrollY: int)

  /** A movement within the noise band of the last acted-on position. */
  predicate IsJitter(size: ScreenSize, h: HeaderTracker, scrollY: int)
  {
    Abs(scrollY - h.lastScrollY) < NoiseBand(size)
  }

  /** One sampled scroll position: jitter is ignored; otherwise the header hides on a
      downward move past the threshold, shows on anything else, and the position is kept. */
  function HeaderStep(size: ScreenSize, h: HeaderTracker, scrollY: int): (h': HeaderTracker)
    ensures IsJitter(size, h, scrollY) ==> h' == h
    ensures !IsJitter(size, h, scrollY) ==> h'.lastScrollY == scrollY
    ensures !IsJitter(size, h, scrollY) ==>
              (!h'.visible <==> scrollY > h.lastScrollY && scrollY > HideThreshold(size))
    ensures scrollY + NoiseBand(size) <= h.lastScrollY ==> h'.visible
    ensures scrollY <= HideThreshold(size) && !IsJitter(size, h, scrollY) ==> h'.visible
    ensures h.lastScrollY + NoiseBand(size) <= scrollY && HideThreshold(size) < scrollY ==> !h'.visible
  {
    if Abs(scrollY - h.lastScrollY) < NoiseBand(size) then h
    else if scrollY > h.lastScrollY && scrollY > HideThreshold(size) then HeaderTracker(false, scrollY)
    else HeaderTracker(true, scrollY)
  }

  /** The tracker after a series of sampled positions at one screen size. */
  function HeaderRun(size: ScreenSize, h: HeaderTracker, ys: seq<int>): HeaderTracker
    decreases |ys|
  {
    if ys == [] then h else HeaderRun(size, HeaderStep(size, h, ys[0]), ys[1..])
  }

  /** A hidden header remembers a position deeper than the hide threshold. */
  predicate HiddenPastThreshold(size: ScreenSize, h: HeaderTracker)
  {
    !h.visible ==> h.lastScrollY > HideThreshold(size)
  }

  /** The header is hidden only while the last acted-on position is past the threshold. */
  lemma {:induction false} HeaderRunHidesOnlyPastThreshold(size: ScreenSize, h: HeaderTracker, ys: seq<int>)
    requires HiddenPastThreshold(size, h)
    ensures HiddenPastThreshold(size, HeaderRun(size, h, ys))
    decreases |ys|
  {
    if ys != [] {
      HeaderRunHidesOnlyPastThreshold(size, HeaderStep(size, h, ys[0]), ys[1..]);
    }
  }

  /** After any non-empty series the remembered position is within the noise band of
      the latest sample: the tracker never lags the page by a noticeable amount. */
  lemma {:induction false} HeaderRunTracksLatest(size: ScreenSize, h: HeaderTracker, ys: seq<int>)
    requires ys != []
    ensures IsJitter(size, HeaderRun(size, h, ys), ys[|ys| - 1])
    decreases |ys|
  {
    var h1 := HeaderStep(size, h, ys[0]);
    if |ys| == 1 {
      assert HeaderRun(size, h1, ys[1..]) == h1;
    } else {
      HeaderRunTracksLatest(size, h1, ys[1..]);
      assert ys[1..][|ys[1..]| - 1] == ys[|ys| - 1];
    }
  }

  // ---------------------------------------------------------------------------
  // Pricing reference latch

  /** Whether the pricing section's reference has been attached, and whether the
      latch's scroll listener is currently subscribed. */
  datatype PricingLatch = PricingLatch(attached: bool, listening: bool)

  /** The latch condition: scrolled deeper than the layout's multiple of the window height. */
  predicate PastAttachMark(size: ScreenSize, scrollY: int, innerHeight: int)
  {
    10 * scrollY > AttachTenths(size) * innerHeight
  }

  /** A subscribed listener that sees the latch condition attaches the reference and unsubscribes. */
  function PricingScroll(size: ScreenSize, r: PricingLatch, scrollY: int, innerHeight: int): (r': PricingLatch)
    ensures r'.attached <==> r.attached || (r.listening && PastAttachMark(size, scrollY, innerHeight))
    ensures r'.listening <==> r.listening && !PastAttachMark(size, scrollY, innerHeight)
  {
    if r.listening && 10 * scrollY > AttachTenths(size) * innerHeight then PricingLatch(true, false)
    else r
  }

  // ---------------------------------------------------------------------------
  // Page state

  datatype View = Landing | Dashboard

  datatype AppState = AppState(
    modalOpen: bool,
    loggedIn: bool,
    view: View,
    screen: ScreenSize,
    header: HeaderTracker,
    pricing: PricingLatch)

  /** What a user can do or the browser can report to the page. `Scroll` is one
      position sampled by the animation-frame callback. */
  datatype Event =
    | Resize(width: int, scrollY: int)
    | Scroll(scrollY: int, innerHeight: int)
    | LoginClick
    | CloseModal
    | LoginSuccess
    | Logout
    | DashboardClick

  /** The latch listener is never subscribed while someone is logged in. */
  predicate Inv(s: AppState)
  {
    s.loggedIn ==> !s.pricing.listening
  }

  /** The page once mounted in a window `width` wide scrolled to `scrollY`: the
      resize effect classifies the width, the header effect reads the position and the
      latch listener is subscribed because nobody is logged in. */
  function Mount(width: int, scrollY: int): (s: AppState)
    ensures Inv(s) && !s.loggedIn && !s.modalOpen && s.view == Landing
    ensures s.screen == Classify(width)
    ensures s.header.visible && s.header.lastScrollY == scrollY
    ensures !s.pricing.attached && s.pricing.listening
  {
    AppState(false, false, Landing, Classify(width), HeaderTracker(true, scrollY), PricingLatch(false, true))
  }

  /** One event. A layout change re-runs both scroll effects: the header tracker re-reads
      the position and the latch listener is re-subscribed unless logged in. A change
      of login state re-runs the latch effect the same way. */
  function Step(s: AppState, e: Event): (s': AppState)
    ensures Inv(s) ==> Inv(s')
    ensures s'.loggedIn <==> e.LoginSuccess? || (s.loggedIn && !e.Logout?)
    ensures s.pricing.attached && !e.Logout? ==> s'.pricing.attached
    ensures !s.pricing.attached && s'.pricing.attached ==>
              e.Scroll? && s.pricing.listening && PastAttachMark(s.screen, e.scrollY, e.innerHeight)
    ensures s'.view == Dashboard ==> e.LoginSuccess? || e.DashboardClick? || s.view == Dashboard
    ensures e.LoginSuccess? ==> s'.view == Dashboard
    ensures e.Logout? ==> s'.view == Landing && !s'.pricing.attached
    ensures e.DashboardClick? ==> s' == s.(view := Dashboard)
    ensures s'.modalOpen <==> e.LoginClick? || (s.modalOpen && !e.CloseModal?)
    ensures !e.Resize? && !e.Scroll? ==> s'.screen == s.screen && s'.header == s.header
    ensures e.Scroll? ==>
              s' == s.(header := HeaderStep(s.screen, s.header, e.scrollY),
                       pricing := PricingScroll(s.screen, s.pricing, e.scrollY, e.innerHeight))
    ensures e.Resize? && Classify(e.width) == s.screen ==> s' == s
    ensures e.Resize? && Classify(e.width) != s.screen ==>
              s' == s.(screen := Classify(e.width),
                       header := s.header.(lastScrollY := e.scrollY),
                       pricing := s.pricing.(listening := !s.loggedIn))
  {
    match e
    case Resize(width, scrollY) =>
      var size := Classify(width);
      if size == s.screen then s
      else s.(screen := size,
              header := s.header.(lastScrollY := scrollY),
              pricing := s.pricing.(listening := !s.loggedIn))
    case Scroll(scrollY, innerHeight) =>
      s.(header := HeaderStep(s.screen, s.header, scrollY),
         pricing := PricingScroll(s.screen, s.pricing, scrollY, innerHeight))
    case LoginClick => s.(modalOpen := true)
    case CloseModal => s.(modalOpen := false)
    case LoginSuccess =>
      s.(loggedIn := true, view := Dashboard,
         pricing := s.pricing.(listening := if s.loggedIn then s.pricing.listening else false))
    case Logout =>
      s.(loggedIn := false, view := Landing,
         pricing := PricingLatch(false, if s.loggedIn then true else s.pricing.listening))
    case DashboardClick => s.(view := Dashboard)
  }

  /** The state after a series of events. */
  function Run(s: AppState, es: seq<Event>): AppState
    decreases |es|
  {
    if es == [] then s else Run(Step(s, es[0]), es[1..])
  }

  /** The scroll events that sample the positions `ys` in a window `innerHeight` high. */
  function Scrolls(ys: seq<int>, innerHeight: int): (es: seq<Event>)
    ensures |es| == |ys|
    ensures forall i :: 0 <= i < |ys| ==> es[i] == Scroll(ys[i], innerHeight)
  {
    seq(|ys|, i requires 0 <= i < |ys| => Scroll(ys[i], innerHeight))
  }

  /** Within one layout the page's header is exactly the header tracker run over the
      sampled positions, so the tracker's properties hold of the page: a hidden header
      remembers a position past the layout's threshold. */
  lemma {:induction false} ScrollsRunHeader(s: AppState, ys: seq<int>, innerHeight: int)
    ensures Run(s, Scrolls(ys, innerHeight)).screen == s.screen
    ensures Run(s, Scrolls(ys, innerHeight)).header == HeaderRun(s.screen, s.header, ys)
    ensures HiddenPastThreshold(s.screen, s.header) ==>
              HiddenPastThreshold(s.screen, Run(s, Scrolls(ys, innerHeight)).header)
    decreases |ys|
  {
    var es := Scrolls(ys, innerHeight);
    if ys != [] {
      var s1 := Step(s, es[0]);
      assert es[1..] == Scrolls(ys[1..], innerHeight);
      ScrollsRunHeader(s1, ys[1..], innerHeight);
      if HiddenPastThreshold(s.screen, s.header) {
        HeaderRunHidesOnlyPastThreshold(s.screen, s.header, ys);
      }
    }
  }

  /** Every reachable state keeps the listener unsubscribed while logged in. */
  lemma {:induction false} RunPreservesInv(s: AppState, es: seq<Event>)
    requires Inv(s)
    ensures Inv(Run(s, es))
    decreases |es|
  {
    if es != [] {
      RunPreservesInv(Step(s, es[0]), es[1..]);
    }
  }

  /** Nobody is logged in unless a login succeeded at some point of the series. */
  lemma {:induction false} LoggedInOnlyAfterLogin(s: AppState, es: seq<Event>)
    requires !s.loggedIn
    ensures Run(s, es).loggedIn ==> LoginSuccess in es
    decreases |es|
  {
    if es != [] {
      var s1 := Step(s, es[0]);
      if !s1.loggedIn {
        LoggedInOnlyAfterLogin(s1, es[1..]);
        assert Run(s1, es[1..]).loggedIn ==> LoginSuccess in es[1..];
      } else {
        assert es[0] == LoginSuccess;
      }
    }
  }

  /** While logged in (in a reachable state), scrolling never attaches the pricing reference. */
  lemma LoggedInScrollKeepsPricing(s: AppState, scrollY: int, innerHeight: int)
    requires Inv(s) && s.loggedIn
    ensures Step(s, Scroll(scrollY, innerHeight)).pricing == s.pricing
  {
  }

  /** After a logout from a logged-in state, the pricing reference is detached and the listener re-armed. */
  lemma LogoutRearmsPricing(s: AppState)
    requires s.loggedIn
    ensures Step(s, Logout).pricing == PricingLatch(false, true)
  {
  }

  // ---------------------------------------------------------------------------
  // Rendering and navigation

  /** The main content: the dashboard, or the landing page, which is handed the
      pricing section's reference only once the latch has fired. */
  datatype Page = DashboardPage | LandingPage(pricingRefAttached: bool)

  function Render(s: AppState): (p: Page)
    ensures p == DashboardPage <==> s.view == Dashboard && s.loggedIn
    ensures p.LandingPage? ==> (p.pricingRefAttached <==> s.pricing.attached)
  {
    if s.view == Dashboard && s.loggedIn then DashboardPage else LandingPage(s.pricing.attached)
  }

  /** A successful login shows the dashboard; a logout shows the landing page without
      the pricing reference; the dashboard button alone never shows it to a visitor. */
  lemma LoginAndLogoutPages(s: AppState)
    ensures Render(Step(s, LoginSuccess)) == DashboardPage
    ensures Render(Step(s, Logout)) == LandingPage(false)
    ensures !s.loggedIn ==> Render(Step(s, DashboardClick)).LandingPage?
  {
  }

  const NavigationDelayMs := 100

  /** The sections the header links scroll to. */
  datatype Section = Services | About | News | Contacts

  /** A scroll the page asks the browser for. The delayed variants run after the view
      switch has rendered. A deferred section scroll remembers the section and the layout
      of the click; the section's position is read only when it fires (see `Fire`). */
  datatype ScrollRequest =
    | NoScroll
    | ScrollTo(top: int)
    | ScrollTopAfter(delayMs: nat)
    | ScrollSectionAfter(delayMs: nat, target: Section, size: ScreenSize)

  /** Document offset that brings a section (at viewport offset `rectTop`) into view
      with the layout's clearance above it. */
  function SectionTarget(size: ScreenSize, rectTop: int, pageYOffset: int): (y: int)
    ensures (rectTop + pageYOffset) - y == SectionClearance(size)
    ensures y < rectTop + pageYOffset
  {
    rectTop + pageYOffset - SectionClearance(size)
  }

  /** The target depends only on where the section sits in the document, not on how the
      page happens to be scrolled; and a larger layout scrolls the same section to a point
      no lower down the page, leaving at least as much room above it. */
  lemma SectionTargetByDocumentOffset(size: ScreenSize, rectTop1: int, pageYOffset1: int, rectTop2: int, pageYOffset2: int)
    ensures SectionTarget(size, rectTop1, pageYOffset1) == SectionTarget(size, rectTop2, pageYOffset2)
            <==> rectTop1 + pageYOffset1 == rectTop2 + pageYOffset2
  {
  }

  lemma SectionTargetByLayout(a: ScreenSize, b: ScreenSize, rectTop: int, pageYOffset: int)
    requires Rank(a) <= Rank(b)
    ensures SectionTarget(b, rectTop, pageYOffset) <= SectionTarget(a, rectTop, pageYOffset)
    ensures a != b ==> SectionTarget(b, rectTop, pageYOffset) < SectionTarget(a, rectTop, pageYOffset)
  {
  }

  /** Scroll to a section when its element is mounted (`Some(rect top)`), else nothing. */
  function SectionScroll(size: ScreenSize, section: Option<int>, pageYOffset: int): (r: ScrollRequest)
    ensures r == NoScroll <==> section.None?
    ensures section.Some? ==> r.ScrollTo? && r.top + SectionClearance(size) == section.value + pageYOffset
  {
    match section
    case None => NoScroll
    case Some(rectTop) => ScrollTo(SectionTarget(size, rectTop, pageYOffset))
  }

  /** A request once its timer has fired, with the target section's element as it is at
      that moment (`Some(rect top)` when mounted) and the page offset then. Immediate
      requests are already done and stay as they are. */
  function Fire(r: ScrollRequest, section: Option<int>, pageYOffset: int): (r': ScrollRequest)
    ensures !r'.ScrollTopAfter? && !r'.ScrollSectionAfter?
    ensures r.ScrollTopAfter? ==> r' == ScrollTo(0)
    ensures r.ScrollSectionAfter? ==> r' == SectionScroll(r.size, section, pageYOffset)
    ensures !r.ScrollTopAfter? && !r.ScrollSectionAfter? ==> r' == r
  {
    match r
    case ScrollTopAfter(_) => ScrollTo(0)
    case ScrollSectionAfter(_, _, size) => SectionScroll(size, section, pageYOffset)
    case _ => r
  }

  /** A header section link: a logged-in user is first sent back to the landing view and
      the scroll to that section is deferred with the layout of the click; a visitor is
      scrolled at once, to the section's position at the click; nothing else changes.
      `section` is the target's element at the click (`Some(rect top)` when mounted). */
  function Navigate(s: AppState, target: Section, section: Option<int>, pageYOffset: int): (r: (AppState, ScrollRequest))
    ensures r.0 == s.(view := if s.loggedIn then Landing else s.view)
    ensures s.loggedIn <==> r.1.ScrollSectionAfter?
    ensures s.loggedIn ==> r.1 == ScrollSectionAfter(NavigationDelayMs, target, s.screen)
    ensures !s.loggedIn ==> r.1 == SectionScroll(s.screen, section, pageYOffset)
  {
    if s.loggedIn then (s.(view := Landing), ScrollSectionAfter(100, target, s.screen))
    else (s, SectionScroll(s.screen, section, pageYOffset))
  }

  /** A logged-in user's deferred scroll, once fired, lands where a visitor's immediate
      scroll would from the same layout: on the section as it is positioned when the timer
      fires, with the clearance of the layout at the click, whatever the section's position
      at the click was. */
  lemma DeferredNavigationLands(s: AppState, target: Section, clickSection: Option<int>, clickOffset: int,
                                section: Option<int>, pageYOffset: int)
    requires s.loggedIn
    ensures Fire(Navigate(s, target, clickSection, clickOffset).1, section, pageYOffset)
            == Navigate(s.(loggedIn := false), target, section, pageYOffset).1
    ensures section.Some? ==>
              Fire(Navigate(s, target, clickSection, clickOffset).1, section, pageYOffset)
              == ScrollTo(section.value + pageYOffset - SectionClearance(s.screen))
    ensures section.None? ==> Fire(Navigate(s, target, clickSection, clickOffset).1, section, pageYOffset) == NoScroll
  {
  }

  /** The logo and the hero both return to the landing view and scroll to the top later. */
  function GoHome(s: AppState): (r: (AppState, ScrollRequest))
    ensures r.0 == s.(view := Landing)
    ensures r.1 == ScrollTopAfter(NavigationDelayMs)
    ensures forall section: Option<int>, pageYOffset: int :: Fire(r.1, section, pageYOffset) == ScrollTo(0)
  {
    (s.(view := Landing), ScrollTopAfter(100))
  }

  /** Section links and the logo always leave the landing page on screen. */
  lemma NavigationShowsLanding(s: AppState, target: Section, section: Option<int>, pageYOffset: int)
    ensures Render(Navigate(s, target, section, pageYOffset).0).LandingPage?
    ensures Render(GoHome(s).0).LandingPage?
  {
  }
}

=== FILE: decimal.dfy ===
/** Decimal rendering of natural numbers, as a JavaScript template literal (`${n}`)
    renders an integral number below 2^53. Above that a JavaScript number is no longer
    exact, and its rendering keeps only the digits that identify the double (padded with
    zeros, and in exponent notation from 10^21); none of this is modelled, because the
    feature probe's index never exceeds the table's size plus one. */
module Decimal {

  /** The character for a single decimal digit. */
  function DigitChar(d: nat): (c: char)
    requires d < 10
    ensures '0' <= c <= '9'
    ensures c as int - '0' as int == d
  {
    ['0', '1', '2', '3', '4', '5', '6', '7', '8', '9'][d]
  }

  /** The shortest decimal numeral of `n`, most significant digit first. */
  function NatToString(n: nat): (s: string)
    ensures |s| >= 1
    ensures forall i :: 0 <= i < |s| ==> '0' <= s[i] <= '9'
    ensures n < 10 <==> |s| == 1
    ensures s[|s| - 1] as int - '0' as int == n % 10
  {
    if n < 10 then [DigitChar(n)] else NatToString(n / 10) + [DigitChar(n % 10)]
  }

  /** Reading the numeral back as a number gives `n`. */
  function ValueOf(s: string): int
  {
    if s == [] then 0 else 10 * ValueOf(s[..|s| - 1]) + (s[|s| - 1] as int - '0' as int)
  }

  lemma {:induction false} ValueOfNatToString(n: nat)
    ensures ValueOf(NatToString(n)) == n
  {
    var s := NatToString(n);
    if n < 10 {
      assert s[..0] == [];
    } else {
      assert s[..|s| - 1] == NatToString(n / 10);
      ValueOfNatToString(n / 10);
    }
  }

  /** Different numbers render differently. */
  lemma NatToStringInjective(a: nat, b: nat)
    requires NatToString(a) == NatToString(b)
    ensures a == b
  {
    ValueOfNatToString(a);
    ValueOfNatToString(b);
  }
}

=== FILE: diagnostics.dfy ===
/** The diagnostics carousel: six service cards, the active (centred) card, the guard on
    card clicks, and each card's action button. The carousel library is reduced to
    whether its handle is present and the snap it reports on selection. */
module Diagnostics {
  import opened Wrappers
  import Decimal

  datatype BadgeVariant = Outline | Secondary | Default | Destructive

  /** One card; its texts are translation keys under "diagnostics." + slug. */
  datatype Diagnostic = Diagnostic(
    slug: string,
    badge: BadgeVariant,
    featureCount: nat,
    isPopular: bool,
    disabled: bool)

  /** The six cards in display order. */
  const Items: seq<Diagnostic> := [
    Diagnostic("basic", Outline, 5, false, false),
    Diagnostic("smart", Secondary, 6, true, false),
    Diagnostic("green", Default, 6, false, false),
    Diagnostic("carbon", Destructive, 5, false, false),
    Diagnostic("compliance", Outline, 5, false, false),
    Diagnostic("transformation", Secondary, 5, false, true)
  ]

  /** The card index is in range and that card is disabled. */
  predicate IsDisabled(index: int)
  {
    0 <= index < |Items| && Items[index].disabled
  }

  /** Only the last card, "transformation", is disabled, and only "smart" is popular. */
  lemma CardFlags()
    ensures |Items| == 6
    ensures forall i :: IsDisabled(i) <==> i == 5
    ensures forall i :: 0 <= i < |Items| ==> (Items[i].isPopular <==> i == 1)
  {
  }

  /** The translation key of feature `n` of the card with slug `slug`. */
  function FeatureKey(slug: string, n: nat): string
  {
    "diagnostics." + slug + ".features." + Decimal.NatToString(n)
  }

  /** The feature keys a card shows, numbered from 1. */
  function FeatureKeys(d: Diagnostic): (ks: seq<string>)
    ensures |ks| == d.featureCount
    ensures forall i :: 0 <= i < |ks| ==> ks[i] == FeatureKey(d.slug, i + 1)
  {
    seq(d.featureCount, i requires 0 <= i => FeatureKey(d.slug, i + 1))
  }

  /** A slug has no dot, so it cannot run into the key's ".features." part. */
  predicate NoDot(s: string)
  {
    forall i :: 0 <= i < |s| ==> s[i] != '.'
  }

  /** Past "diagnostics.", a feature key spells its slug and then a dot. */
  lemma FeatureKeyCharAt(slug: string, n: nat, i: nat)
    requires i <= |slug|
    ensures |"diagnostics."| + i < |FeatureKey(slug, n)|
    ensures FeatureKey(slug, n)[|"diagnostics."| + i] == if i < |slug| then slug[i] else '.'
  {
  }

  /** A feature key names its card and its feature number: for dot-free slugs, equal keys
      have equal slugs and equal numbers. */
  lemma FeatureKeyDetermines(s1: string, n1: nat, s2: string, n2: nat)
    requires NoDot(s1) && NoDot(s2)
    requires FeatureKey(s1, n1) == FeatureKey(s2, n2)
    ensures s1 == s2 && n1 == n2
  {
    var k1, k2 := FeatureKey(s1, n1), FeatureKey(s2, n2);
    var p := |"diagnostics."|;
    // The first dot after the prefix ends both slugs at the same place.
    var m := if |s1| < |s2| then |s1| else |s2|;
    FeatureKeyCharAt(s1, n1, m);
    FeatureKeyCharAt(s2, n2, m);
    assert |s1| == |s2|;
    assert s1 == k1[p..p + |s1|];
    assert s2 == k2[p..p + |s2|];
    var q := p + |s1| + |".features."|;
    assert k1[q..] == Decimal.NatToString(n1);
    assert k2[q..] == Decimal.NatToString(n2);
    Decimal.NatToStringInjective(n1, n2);
  }

  /** The slugs of the six cards are dot-free and distinct. */
  lemma ShippedSlugs()
    ensures forall i :: 0 <= i < |Items| ==> NoDot(Items[i].slug)
    ensures forall i, j :: 0 <= i < j < |Items| ==> Items[i].slug != Items[j].slug
  {
  }

  /** No two features shown anywhere in the carousel share a translation key: within a
      card the numbers differ, and across cards the slugs do. */
  lemma ShippedFeatureKeysDistinct(i: nat, a: nat, j: nat, b: nat)
    requires i < |Items| && j < |Items|
    requires a < |FeatureKeys(Items[i])| && b < |FeatureKeys(Items[j])|
    requires i != j || a != b
    ensures FeatureKeys(Items[i])[a] != FeatureKeys(Items[j])[b]
  {
    ShippedSlugs();
    if FeatureKeys(Items[i])[a] == FeatureKeys(Items[j])[b] {
      FeatureKeyDetermines(Items[i].slug, a + 1, Items[j].slug, b + 1);
      assert false;
    }
  }

  /** The carousel's state: whether the library handle has been received, and the
      index of the active card. */
  datatype Carousel = Carousel(apiPresent: bool, activeIndex: int)

  const InitialActiveIndex := 1

  /** Before the library reports in, the second card ("smart") is active. */
  function InitialCarousel(): (c: Carousel)
    ensures !c.apiPresent && c.activeIndex == InitialActiveIndex
    ensures Items[c.activeIndex].isPopular && !IsDisabled(c.activeIndex)
  {
    Carousel(false, 1)
  }

  /** What a card click asks for: the new state and the snap the carousel is told to scroll to. */
  datatype ClickOutcome = ClickOutcome(carousel: Carousel, scrollTo: Option<int>)

  /** Clicking card `index`. Without the handle nothing happens (the card is not even
      looked at); with it, an enabled card becomes active and is scrolled to, a disabled
      one changes nothing, and an index past the cards is an error. */
  function HandleCardClick(c: Carousel, index: int): (r: Result<ClickOutcome>)
    ensures r.Failure? <==> c.apiPresent && !(0 <= index < |Items|)
    ensures r.Success? && r.value.scrollTo.None? ==> r.value.carousel == c
    ensures r.Success? ==> (r.value.scrollTo.Some? <==> c.apiPresent && !IsDisabled(index))
    ensures r.Success? && r.value.scrollTo.Some? ==>
              r.value.scrollTo.value == index && r.value.carousel == c.(activeIndex := index)
  {
    if !c.apiPresent then Success(ClickOutcome(c, None))
    else if !(0 <= index < |Items|) then Failure("diagnostics[index] is undefined")
    else if Items[index].disabled then Success(ClickOutcome(c, None))
    else Success(ClickOutcome(c.(activeIndex := index), Some(index)))
  }

  /** The library hands over its handle (`Some(selected snap)`) or withdraws it (`None`);
      a new handle's current snap becomes the active card. */
  function HandleApiChange(c: Carousel, api: Option<int>): (r: Carousel)
    ensures r.apiPresent <==> api.Some?
    ensures r.activeIndex == if api.Some? then api.value else c.activeIndex
  {
    match api
    case None => c.(apiPresent := false)
    case Some(snap) => Carousel(true, snap)
  }

  /** The library's select notification: the snap it settled on becomes active, whatever
      card that is. */
  function HandleSelect(c: Carousel, snap: int): (r: Carousel)
    requires c.apiPresent
    ensures r.apiPresent && r.activeIndex == snap
  {
    c.(activeIndex := snap)
  }

  /** The state after a series of select notifications on a carousel whose handle is present. */
  function SelectRun(c: Carousel, snaps: seq<int>): (r: Carousel)
    requires c.apiPresent
    ensures r.apiPresent
    decreases |snaps|
  {
    if snaps == [] then c else SelectRun(HandleSelect(c, snaps[0]), snaps[1..])
  }

  /** Once a handle has arrived, the active card is always the snap the library reported
      last: the snap it handed over with the handle, or the latest select notification. */
  lemma {:induction false} ActiveFollowsLastSnap(c: Carousel, snap: int, snaps: seq<int>)
    ensures SelectRun(HandleApiChange(c, Some(snap)), snaps).activeIndex == ([snap] + snaps)[|snaps|]
    decreases |snaps|
  {
    if snaps != [] {
      var c1 := HandleApiChange(c, Some(snap));
      assert HandleSelect(c1, snaps[0]) == HandleApiChange(c, Some(snaps[0]));
      ActiveFollowsLastSnap(c, snaps[0], snaps[1..]);
      assert ([snaps[0]] + snaps[1..])[|snaps[1..]|] == ([snap] + snaps)[|snaps|];
    }
  }

  /** A card is drawn centred when its index is the active one. */
  predicate IsCentre(c: Carousel, index: int)
  {
    index == c.activeIndex
  }

  /** The cards drawn centred: never more than one. */
  function CentredCards(c: Carousel): (r: set<int>)
    ensures |r| <= 1
    ensures r == {} <==> !(0 <= c.activeIndex < |Items|)
    ensures forall i :: i in r <==> 0 <= i < |Items| && IsCentre(c, i)
  {
    var r := set i | 0 <= i < |Items| && IsCentre(c, i);
    if 0 <= c.activeIndex < |Items| then
      assert r == {c.activeIndex};
      r
    else
      assert r == {};
      r
  }

  const ComingSoonKey := "diagnostics.coming_soon"
  const LearnMoreKey := "diagnostics.learn_more"

  /** A card's action button: disabled and labelled "coming soon" for a disabled card,
      enabled and labelled "learn more" otherwise. */
  datatype ActionButton = ActionButton(disabled: bool, labelKey: string)

  function CardButton(d: Diagnostic): (b: ActionButton)
    ensures b.disabled <==> d.disabled
    ensures b.disabled <==> b.labelKey == ComingSoonKey
    ensures b.labelKey in {ComingSoonKey, LearnMoreKey}
  {
    if d.disabled then ActionButton(true, ComingSoonKey)
    else ActionButton(false, LearnMoreKey)
  }

  /** Among the shipped cards, the button is disabled and says "coming soon" exactly on
      the card a click cannot activate, the sixth; every other card offers "learn more". */
  lemma ShippedCardButtons()
    ensures forall i :: 0 <= i < |Items| ==> (CardButton(Items[i]).disabled <==> IsDisabled(i))
    ensures forall i :: 0 <= i < |Items| ==> (CardButton(Items[i]).labelKey == ComingSoonKey <==> i == 5)
    ensures forall i :: 0 <= i < |Items| && i != 5 ==> CardButton(Items[i]).labelKey == LearnMoreKey
  {
  }

  /** A series of card clicks, stopping at the first error. */
  function Clicks(c: Carousel, indices: seq<int>): Result<Carousel>
    decreases |indices|
  {
    if indices == [] then Success(c)
    else
      match HandleCardClick(c, indices[0])
      case Failure(e) => Failure(e)
      case Success(o) => Clicks(o.carousel, indices[1..])
  }

  /** Clicks alone never make a disabled card active: that takes a select notification. */
  lemma {:induction false} ClicksNeverActivateDisabled(c: Carousel, indices: seq<int>)
    requires !IsDisabled(c.activeIndex)
    ensures Clicks(c, indices).Success? ==> !IsDisabled(Clicks(c, indices).value.activeIndex)
    decreases |indices|
  {
    if indices != [] {
      var r := HandleCardClick(c, indices[0]);
      if r.Success? {
        ClicksNeverActivateDisabled(r.value.carousel, indices[1..]);
      }
    }
  }

  /** A select notification can activate the disabled card. */
  lemma SelectCanActivateDisabled()
    ensures IsDisabled(HandleSelect(Carousel(true, InitialActiveIndex), 5).activeIndex)
  {
  }
}

=== FILE: header.dfy ===
/** The site header: its navigation entries, the mobile menu sheet and its handlers,
    and the language option shown for the active language. The owner's handlers are
    optional; a provided one is modelled by naming it in the set `provided`, and a call
    to it by emitting its name. */
module HeaderMenu {
  import opened Wrappers
  import opened Translation

  /** The optional handlers the header receives from its owner. */
  datatype Callback =
    | OnDashboardClick
    | OnServicesClick
    | OnNewsClick
    | OnAboutClick
    | OnContactsClick
    | OnLoginClick
    | OnLogout

  /** What a header handler did: the mobile menu's new open state and the owner's
      handlers it called, in order. */
  datatype Reaction = Reaction(menuOpen: bool, calls: seq<Callback>)

  /** Calls `handler` if the owner provided it. */
  function CallIfProvided(provided: set<Callback>, handler: Callback): (calls: seq<Callback>)
    ensures |calls| <= 1
    ensures calls != [] <==> handler in provided
    ensures forall c :: c in calls ==> c == handler
  {
    if handler in provided then [handler] else []
  }

  /** A link in the mobile menu: calls its handler if provided and always closes the menu. */
  function HandleMobileNavigation(provided: set<Callback>, handler: Callback): (r: Reaction)
    ensures !r.menuOpen
    ensures r.calls == CallIfProvided(provided, handler)
  {
    Reaction(false, CallIfProvided(provided, handler))
  }

  /** The mobile login button: calls the login handler if provided and closes the menu. */
  function HandleMobileLogin(provided: set<Callback>): (r: Reaction)
    ensures !r.menuOpen
    ensures r.calls == CallIfProvided(provided, OnLoginClick)
  {
    HandleMobileNavigation(provided, OnLoginClick)
  }

  /** The mobile logout button: calls the logout handler if provided and closes the menu. */
  function HandleMobileLogout(provided: set<Callback>): (r: Reaction)
    ensures !r.menuOpen
    ensures r.calls == CallIfProvided(provided, OnLogout)
  {
    HandleMobileNavigation(provided, OnLogout)
  }

  // ---------------------------------------------------------------------------
  // Navigation entries

  datatype NavEntry = DashboardEntry | ServicesEntry | NewsEntry | AboutEntry | ContactsEntry

  /** The handler each entry invokes. */
  function EntryHandler(e: NavEntry): Callback
  {
    match e
    case DashboardEntry => OnDashboardClick
    case ServicesEntry => OnServicesClick
    case NewsEntry => OnNewsClick
    case AboutEntry => OnAboutClick
    case ContactsEntry => OnContactsClick
  }

  /** The section links every visitor sees, in display order. */
  const SectionEntries: seq<NavEntry> := [ServicesEntry, NewsEntry, AboutEntry, ContactsEntry]

  /** The entries of a navigation list (the desktop bar and the mobile sheet list the same
      ones): the dashboard first when logged in, then the section links. */
  function NavEntries(isLoggedIn: bool): (es: seq<NavEntry>)
    ensures |es| == if isLoggedIn then 5 else 4
    ensures DashboardEntry in es <==> isLoggedIn
    ensures es[|es| - 4..] == SectionEntries
  {
    (if isLoggedIn then [DashboardEntry] else []) + SectionEntries
  }

  /** Distinct entries invoke distinct handlers, and no entry invokes login or logout. */
  lemma EntryHandlersDistinct(a: NavEntry, b: NavEntry)
    ensures EntryHandler(a) == EntryHandler(b) <==> a == b
    ensures EntryHandler(a) != OnLoginClick && EntryHandler(a) != OnLogout
  {
  }

  /** Clicking an entry in the desktop bar calls its handler directly and leaves the
      mobile menu as it was. */
  function ClickDesktopEntry(menuOpen: bool, provided: set<Callback>, e: NavEntry): (r: Reaction)
    ensures r.menuOpen == menuOpen
    ensures r.calls == CallIfProvided(provided, EntryHandler(e))
  {
    Reaction(menuOpen, CallIfProvided(provided, EntryHandler(e)))
  }

  /** The same entry in the mobile sheet calls the same handler and also closes the menu. */
  lemma MobileEntryMatchesDesktop(menuOpen: bool, provided: set<Callback>, e: NavEntry)
    ensures HandleMobileNavigation(provided, EntryHandler(e))
            == ClickDesktopEntry(menuOpen, provided, e).(menuOpen := false)
  {
  }

  /** Tailwind's default `md` and `lg` breakpoints (px). */
  const MdMinWidth := 768
  const LgMinWidth := 1024

  /** The desktop bar shows from `lg` when logged in and from `md` otherwise. */
  predicate DesktopBarShown(isLoggedIn: bool, width: int)
  {
    width >= if isLoggedIn then LgMinWidth else MdMinWidth
  }

  /** The menu button shows below the same breakpoint. */
  predicate MenuButtonShown(isLoggedIn: bool, width: int)
  {
    width < if isLoggedIn then LgMinWidth else MdMinWidth
  }

  /** At every width exactly one way to navigate is on screen, and logging in never
      makes the desktop bar appear where it was hidden. */
  lemma ExactlyOneNavigation(isLoggedIn: bool, width: int)
    ensures DesktopBarShown(isLoggedIn, width) != MenuButtonShown(isLoggedIn, width)
    ensures DesktopBarShown(true, width) ==> DesktopBarShown(false, width)
  {
  }

  // ---------------------------------------------------------------------------
  // Mobile sheet account block

  /** The bottom of the mobile sheet: the user card with a logout button, or a login button. */
  datatype AccountBlock = UserCardWithLogout | LoginButton

  function MobileAccountBlock(isLoggedIn: bool): (b: AccountBlock)
    ensures b == UserCardWithLogout <==> isLoggedIn
  {
    if isLoggedIn then UserCardWithLogout else LoginButton
  }

  /** Pressing the account block's button. */
  function ClickAccountBlock(provided: set<Callback>, b: AccountBlock): Reaction
  {
    match b
    case UserCardWithLogout => HandleMobileLogout(provided)
    case LoginButton => HandleMobileLogin(provided)
  }

  /** The sheet offers logout exactly when it lists the dashboard, and its button can
      only ever call the handler matching the login state. */
  lemma AccountBlockMatchesNav(isLoggedIn: bool, provided: set<Callback>)
    ensures MobileAccountBlock(isLoggedIn) == UserCardWithLogout <==> DashboardEntry in NavEntries(isLoggedIn)
    ensures ClickAccountBlock(provided, MobileAccountBlock(isLoggedIn)).calls
            == CallIfProvided(provided, if isLoggedIn then OnLogout else OnLoginClick)
    ensures !ClickAccountBlock(provided, MobileAccountBlock(isLoggedIn)).menuOpen
  {
  }

  // ---------------------------------------------------------------------------
  // Language options

  /** One entry of the language menu; `displayLabel` is the entry's `label` (a reserved word here). */
  datatype LanguageOption = LanguageOption(code: string, displayLabel: string, short: string)

  /** The selectable languages in menu order. */
  const LanguageOptions: seq<LanguageOption> := [
    LanguageOption("ru", "Русский", "RU"),
    LanguageOption("en", "English", "EN"),
    LanguageOption("kz", "Қазақша", "KZ")
  ]

  /** The first option with the given code, if any. */
  function Find(options: seq<LanguageOption>, code: string): (r: Option<nat>)
    ensures r.Some? ==> r.value < |options| && options[r.value].code == code
    ensures r.Some? ==> forall j :: 0 <= j < r.value ==> options[j].code != code
    ensures r.None? ==> forall j :: 0 <= j < |options| ==> options[j].code != code
    decreases |options|
  {
    if options == [] then None
    else if options[0].code == code then Some(0)
    else
      match Find(options[1..], code)
      case None => None
      case Some(i) => Some(i + 1)
  }

  /** Where each language sits in the menu. */
  function OptionIndex(l: Language): nat
  {
    match l
    case Ru => 0
    case En => 1
    case Kz => 2
  }

  /** Each language has its option, and no two options share a code. */
  lemma OptionCodesMatchLanguages()
    ensures forall l: Language :: OptionIndex(l) < |LanguageOptions| && LanguageOptions[OptionIndex(l)].code == Code(l)
    ensures forall i, j :: 0 <= i < j < |LanguageOptions| ==> LanguageOptions[i].code != LanguageOptions[j].code
  {
  }

  /** The option shown for the active language is always found, and it is that
      language's own option: no other option carries its code. */
  lemma CurrentLanguageDefined(l: Language)
    ensures Find(LanguageOptions, Code(l)) == Some(OptionIndex(l))
    ensures forall i :: 0 <= i < |LanguageOptions| && LanguageOptions[i].code == Code(l) ==> i == OptionIndex(l)
  {
    OptionCodesMatchLanguages();
  }

  /** The option displayed as the current language; `None` only for a code outside the menu. */
  function CurrentLanguage(language: string): (r: Option<LanguageOption>)
    ensures r.Some? ==> r.value in LanguageOptions && r.value.code == language
    ensures r.None? <==> language !in {"ru", "en", "kz"}
  {
    match Find(LanguageOptions, language)
    case None => None
    case Some(i) => Some(LanguageOptions[i])
  }

  /** Picking the `i`-th entry of either language menu: the provider switches to that
      entry's language, the tables stay, and the entry becomes the one shown as current. */
  function ChooseLanguage(p: Provider, i: nat): (p': Provider)
    requires i < |LanguageOptions|
    ensures p'.tables == p.tables
    ensures Code(p'.language) == LanguageOptions[i].code
    ensures CurrentLanguage(Code(p'.language)) == Some(LanguageOptions[i])
  {
    var l := if i == 0 then Ru else if i == 1 then En else Kz;
    CurrentLanguageDefined(l);
    SetLanguage(p, l)
  }
}

=== FILE: login_modal.dfy ===
/** The login dialog's form state: the tab, the login fields and their error line,
    and the registration fields, with the login check and the reset on close.
    Calls the dialog makes to its owner are returned as a list of notifications. */
module LoginForm {
  import opened Translation
  import TranslationTables

  datatype Tab = LoginTab | RegisterTab

  /** The registration form: field name to current text. The handler writes whatever
      name it is given, so the form is a map rather than a record. */
  type RegisterForm = map<string, string>

  /** The ten fields the registration form starts with. */
  const RegisterFields: seq<string> := [
    "fullName", "email", "phone", "position", "companyName",
    "industry", "companySize", "city", "password", "confirmPassword"
  ]

  /** Every registration field present and empty. */
  const EmptyRegisterForm: RegisterForm := map f | f in RegisterFields :: ""

  datatype FormState = FormState(
    tab: Tab,
    email: string,
    password: string,
    error: string,
    register: RegisterForm)

  /** What the dialog asks of its owner: the owner's login handler, then its close handler. */
  datatype Notification = LoginSucceeded | Closed

  const DemoEmail := "demo@sc.com"
  const DemoPassword := "C0mpa$$"
  const InvalidCredentialsKey := "auth.invalidCredentials"

  /** The dialog as first rendered. */
  function InitialForm(): (f: FormState)
    ensures f.tab == LoginTab && f.email == "" && f.password == "" && f.error == ""
    ensures f.register.Keys == set k | k in RegisterFields
    ensures forall k :: k in f.register ==> f.register[k] == ""
  {
    FormState(LoginTab, "", "", "", EmptyRegisterForm)
  }

  /** There are exactly ten distinct registration fields. */
  lemma RegisterFieldsDistinct()
    ensures |RegisterFields| == 10
    ensures forall i, j :: 0 <= i < j < |RegisterFields| ==> RegisterFields[i] != RegisterFields[j]
  {
  }

  /** The credential check: both strings must match exactly. */
  predicate IsDemoLogin(email: string, password: string)
  {
    email == DemoEmail && password == DemoPassword
  }

  /** Submitting the login form: the error is cleared first; the demo credentials notify
      the owner (login, then close) and empty both fields; anything else shows the
      translated error and keeps what was typed. */
  function HandleLogin(p: Provider, f: FormState): (r: (FormState, seq<Notification>))
    ensures IsDemoLogin(f.email, f.password) <==> r.1 != []
    ensures r.1 != [] ==> r.1 == [LoginSucceeded, Closed]
    ensures r.1 != [] ==> r.0.email == "" && r.0.password == ""
    ensures r.1 == [] ==> r.0.email == f.email && r.0.password == f.password
    ensures r.1 == [] ==> r.0.error == T(p, InvalidCredentialsKey)
    ensures r.0.error == "" <==> r.1 != []
    ensures r.0.tab == f.tab && r.0.register == f.register
  {
    var cleared := f.(error := "");
    if IsDemoLogin(f.email, f.password) then
      (cleared.(email := "", password := ""), [LoginSucceeded, Closed])
    else
      (cleared.(error := T(p, InvalidCredentialsKey)), [])
  }

  /** A failed attempt does not depend on the previous error: submitting twice in a row
      gives the same state as submitting once. */
  lemma FailedLoginIdempotent(p: Provider, f: FormState)
    requires !IsDemoLogin(f.email, f.password)
    ensures HandleLogin(p, HandleLogin(p, f).0) == HandleLogin(p, f)
  {
  }

  /** Editing one registration field: that field takes the new text, every other field
      keeps its text, and a name not yet present is added. */
  function HandleRegisterChange(f: FormState, field: string, value: string): (r: FormState)
    ensures r.register.Keys == f.register.Keys + {field}
    ensures r.register[field] == value
    ensures forall k :: k in f.register && k != field ==> r.register[k] == f.register[k]
    ensures r.(register := f.register) == f
  {
    f.(register := f.register[field := value])
  }

  /** Editing one of the ten fields never changes the form's shape. */
  lemma RegisterChangeKeepsFields(field: string, value: string)
    requires field in RegisterFields
    ensures HandleRegisterChange(InitialForm(), field, value).register.Keys == InitialForm().register.Keys
  {
  }

  /** Closing the dialog (also what every dismissal of the dialog triggers: its close
      button, Escape, or a click outside it): every
      text is emptied, the registration form is reset, the tab is kept and the owner is
      told to close. */
  function HandleClose(f: FormState): (r: (FormState, seq<Notification>))
    ensures r.1 == [Closed]
    ensures r.0 == InitialForm().(tab := f.tab)
  {
    (FormState(f.tab, "", "", "", EmptyRegisterForm), [Closed])
  }

  /** Closing forgets everything typed before: two forms on the same tab close to the
      same state, and closing twice is closing once. */
  lemma CloseForgetsInput(f: FormState, g: FormState)
    requires f.tab == g.tab
    ensures HandleClose(f).0 == HandleClose(g).0
    ensures HandleClose(HandleClose(f).0) == HandleClose(f)
  {
  }

  /** A successful login closes through the owner only, so unlike `HandleClose` it keeps
      the registration form and the tab as they were. */
  lemma SuccessKeepsRegistration(p: Provider, f: FormState)
    requires IsDemoLogin(f.email, f.password)
    ensures HandleLogin(p, f).0 == HandleClose(f).0.(register := f.register)
  {
  }

  function SelectTab(f: FormState, tab: Tab): (r: FormState)
    ensures r.tab == tab && r.(tab := f.tab) == f
  {
    f.(tab := tab)
  }

  function SetEmail(f: FormState, email: string): (r: FormState)
    ensures r.email == email && r.(email := f.email) == f
  {
    f.(email := email)
  }

  function SetPassword(f: FormState, password: string): (r: FormState)
    ensures r.password == password && r.(password := f.password) == f
  {
    f.(password := password)
  }

  /** Typing the demo credentials into a fresh dialog and submitting logs in. */
  lemma DemoCredentialsLogIn(p: Provider)
    ensures HandleLogin(p, SetPassword(SetEmail(InitialForm(), DemoEmail), DemoPassword)).1
            == [LoginSucceeded, Closed]
  {
  }

  // The error key is in none of the sections (one lemma per section keeps each proof small).
  lemma InvalidCredentialsNotInNavigation()
    ensures InvalidCredentialsKey !in TranslationTables.NavigationKeys
  {
  }

  lemma InvalidCredentialsNotInPricing()
    ensures InvalidCredentialsKey !in TranslationTables.PricingKeys
  {
  }

  lemma InvalidCredentialsNotInStartup()
    ensures InvalidCredentialsKey !in TranslationTables.StartupKeys
  {
  }

  lemma InvalidCredentialsNotInAvantgard()
    ensures InvalidCredentialsKey !in TranslationTables.AvantgardKeys
  {
  }

  lemma InvalidCredentialsNotInQuantum()
    ensures InvalidCredentialsKey !in TranslationTables.QuantumKeys
  {
  }

  lemma InvalidCredentialsNotInEnterprise()
    ensures InvalidCredentialsKey !in TranslationTables.EnterpriseKeys
  {
  }

  lemma InvalidCredentialsNotInCommon()
    ensures InvalidCredentialsKey !in TranslationTables.CommonKeys
  {
  }

  /** The error key is not a common key. */
  lemma InvalidCredentialsNotATableKey()
    ensures InvalidCredentialsKey !in TranslationTables.TableKeys
  {
    InvalidCredentialsNotInNavigation();
    InvalidCredentialsNotInPricing();
    InvalidCredentialsNotInStartup();
    InvalidCredentialsNotInAvantgard();
    InvalidCredentialsNotInQuantum();
    InvalidCredentialsNotInEnterprise();
    InvalidCredentialsNotInCommon();
  }

  /** Every shipped table defines exactly the common keys, and "auth.invalidCredentials"
      is not one of them: with a table of that key set a failed attempt shows the key
      itself as the error, in whatever language. */
  lemma ShippedTablesShowRawErrorKey(p: Provider, f: FormState)
    requires p.tables.TableFor(p.language).Keys == TranslationTables.TableKeys
    requires !IsDemoLogin(f.email, f.password)
    ensures HandleLogin(p, f).0.error == InvalidCredentialsKey
  {
    InvalidCredentialsNotATableKey();
  }
}

=== FILE: pricing.dfy ===
/** The pricing section: the four plans, the feature-list probe that reads a plan's
    features out of the translation table, and the small colour and label choices. */
module Pricing {
  import opened Translation
  import Decimal

  /** One pricing card's static data. */
  datatype Plan = Plan(key: string, icon: string, isPopular: bool, color: string)

  /** The plans in display order. */
  const PricingPlans: seq<Plan> := [
    Plan("startup", "📊", false, "blue"),
    Plan("avantgard", "👑", true, "purple"),
    Plan("quantum", "⚡", false, "green"),
    Plan("enterprise", "🚀", false, "orange")
  ]

  /** Exactly one plan is popular, and it is avantgard. */
  lemma ExactlyOnePopular()
    ensures forall i :: 0 <= i < |PricingPlans| ==> (PricingPlans[i].isPopular <==> i == 1)
    ensures PricingPlans[1].key == "avantgard"
  {
  }

  // ----- Feature keys -----

  /** The translation key of a plan's `index`-th feature: `pricing.plans.<plan>.feature<index>`. */
  function FeatureKey(planKey: string, index: nat): (k: string)
    ensures |FeaturePrefix(planKey)| < |k|
    ensures k[..|FeaturePrefix(planKey)|] == FeaturePrefix(planKey)
    ensures k[|FeaturePrefix(planKey)|..] == Decimal.NatToString(index)
  {
    FeaturePrefix(planKey) + Decimal.NatToString(index)
  }

  /** The digits after a feature key's prefix read back as the feature's index. */
  lemma FeatureKeyReadsBack(planKey: string, index: nat)
    ensures Decimal.ValueOf(FeatureKey(planKey, index)[|FeaturePrefix(planKey)|..]) == index
  {
    Decimal.ValueOfNatToString(index);
  }

  function FeaturePrefix(planKey: string): string
  {
    "pricing.plans." + planKey + ".feature"
  }

  /** Different indexes give different keys, so each probe asks about a fresh key. */
  lemma FeatureKeyInjective(planKey: string, i: nat, j: nat)
    requires FeatureKey(planKey, i) == FeatureKey(planKey, j)
    ensures i == j
  {
    var pre := FeaturePrefix(planKey);
    assert FeatureKey(planKey, i)[|pre|..] == Decimal.NatToString(i);
    assert FeatureKey(planKey, j)[|pre|..] == Decimal.NatToString(j);
    Decimal.NatToStringInjective(i, j);
  }

  // ----- The probe -----

  /** The plan's `index`-th feature has a translation: its lookup does not fall back. */
  predicate HasFeature(tbl: Table, planKey: string, index: nat)
  {
    !FallsBack(tbl, FeatureKey(planKey, index))
  }

  /** `fs` holds the translations of features 1 to |fs|, in index order, and each of
      them has one. */
  ghost predicate ProbedPrefix(tbl: Table, planKey: string, fs: seq<string>)
  {
    && (forall i :: 1 <= i <= |fs| ==> HasFeature(tbl, planKey, i))
    && (forall j :: 0 <= j < |fs| ==> fs[j] == Lookup(tbl, FeatureKey(planKey, j + 1)))
  }

  /** `fs` is the feature list of `planKey` in `tbl`: features 1 to |fs| have translations,
      `fs` holds those translations in index order, and feature |fs|+1 falls back. */
  ghost predicate IsFeatureList(tbl: Table, planKey: string, fs: seq<string>)
  {
    ProbedPrefix(tbl, planKey, fs) && !HasFeature(tbl, planKey, |fs| + 1)
  }

  /** No key of feature `from` or later has been probed yet. */
  ghost predicate UnprobedFrom(planKey: string, probed: set<string>, from: nat)
  {
    forall j: nat :: j >= from ==> FeatureKey(planKey, j) !in probed
  }

  /** A probe that finds feature `n` in the table adds a key not seen before, so fewer table
      keys remain unprobed: this is what bounds the probe loop by the table's size. */
  lemma ProbeShrinksUnprobed(tbl: Table, planKey: string, probed: set<string>, n: nat)
    requires probed <= tbl.Keys && UnprobedFrom(planKey, probed, n)
    requires FeatureKey(planKey, n) in tbl
    ensures probed + {FeatureKey(planKey, n)} <= tbl.Keys
    ensures UnprobedFrom(planKey, probed + {FeatureKey(planKey, n)}, n + 1)
    ensures |tbl.Keys - (probed + {FeatureKey(planKey, n)})| == |tbl.Keys - probed| - 1
  {
    var key := FeatureKey(planKey, n);
    forall j: nat | j >= n + 1
      ensures FeatureKey(planKey, j) !in probed + {key}
    {
      if FeatureKey(planKey, j) == key {
        FeatureKeyInjective(planKey, j, n);
      }
    }
    assert tbl.Keys - (probed + {key}) == (tbl.Keys - probed) - {key};
  }

  /** One successful probe extends the prefix by the next feature's translation. */
  lemma PrefixExtends(tbl: Table, planKey: string, fs: seq<string>)
    requires ProbedPrefix(tbl, planKey, fs) && HasFeature(tbl, planKey, |fs| + 1)
    ensures ProbedPrefix(tbl, planKey, fs + [Lookup(tbl, FeatureKey(planKey, |fs| + 1))])
  {
  }

  /** `getPlanFeatures`: probe feature1, feature2, ... with `t` until a lookup falls back.
      The loop ends because each probe that continues finds a new key of the (finite) table;
      for the same reason the list is never longer than the table, so the probe index never
      exceeds the table's size plus one. */
  method GetPlanFeatures(p: Provider, planKey: string) returns (features: seq<string>)
    ensures IsFeatureList(p.tables.TableFor(p.language), planKey, features)
    ensures |features| <= |p.tables.TableFor(p.language).Keys|
  {
    var tbl := p.tables.TableFor(p.language);
    features := [];
    var featureIndex: nat := 1;
    ghost var probed: set<string> := {};
    while T(p, FeatureKey(planKey, featureIndex)) != FeatureKey(planKey, featureIndex)
      invariant featureIndex == |features| + 1
      invariant ProbedPrefix(tbl, planKey, features)
      invariant probed <= tbl.Keys && UnprobedFrom(planKey, probed, featureIndex)
      invariant |features| + |tbl.Keys - probed| == |tbl.Keys|
      decreases |tbl.Keys - probed|
    {
      var key := FeatureKey(planKey, featureIndex);
      PrefixExtends(tbl, planKey, features);
      ProbeShrinksUnprobed(tbl, planKey, probed, featureIndex);
      features := features + [T(p, key)];
      probed := probed + {key};
      featureIndex := featureIndex + 1;
    }
  }

  /** A missing feature k stops the list before k, so every later feature is suppressed even
      when the table has it. */
  lemma MissingFeatureSuppressesLater(tbl: Table, planKey: string, fs: seq<string>, k: nat)
    requires IsFeatureList(tbl, planKey, fs)
    requires 1 <= k && !HasFeature(tbl, planKey, k)
    ensures |fs| < k
  {
  }

  /** No listed feature is the bare key it was looked up under. */
  lemma FeaturesAreTranslations(tbl: Table, planKey: string, fs: seq<string>)
    requires IsFeatureList(tbl, planKey, fs)
    ensures forall j :: 0 <= j < |fs| ==> fs[j] != FeatureKey(planKey, j + 1)
  {
    forall j | 0 <= j < |fs|
      ensures fs[j] != FeatureKey(planKey, j + 1)
    {
      assert HasFeature(tbl, planKey, j + 1);
    }
  }

  /** When features 1 to n all have translations, the list reaches at least n. */
  lemma PresentPrefixIsListed(tbl: Table, planKey: string, fs: seq<string>, n: nat)
    requires IsFeatureList(tbl, planKey, fs)
    requires forall i :: 1 <= i <= n ==> HasFeature(tbl, planKey, i)
    ensures n <= |fs|
  {
  }

  /** Features 1 to n of the plan are all in the key set. */
  predicate KeysListedUpTo(keys: set<string>, planKey: string, n: nat)
  {
    n == 0 || (FeatureKey(planKey, n) in keys && KeysListedUpTo(keys, planKey, n - 1))
  }

  /** On a table whose entries all translate, listed feature keys are present features. */
  lemma {:induction false} ListedKeysArePresent(tbl: Table, planKey: string, n: nat)
    requires AllEntriesTranslate(tbl) && KeysListedUpTo(tbl.Keys, planKey, n)
    ensures forall i :: 1 <= i <= n ==> HasFeature(tbl, planKey, i)
  {
    if n > 0 {
      ListedKeysArePresent(tbl, planKey, n - 1);
      FallsBackOnlyWhenAbsent(tbl, FeatureKey(planKey, n));
    }
  }

  /** Keys listed in either part of a union are listed in the union. */
  lemma {:induction false} ListedInUnion(a: set<string>, b: set<string>, planKey: string, n: nat)
    requires KeysListedUpTo(a, planKey, n) || KeysListedUpTo(b, planKey, n)
    ensures KeysListedUpTo(a + b, planKey, n)
  {
    if n > 0 {
      ListedInUnion(a, b, planKey, n - 1);
    }
  }

  /** With features 1 to n present and feature n+1 absent, the list has exactly n entries. */
  lemma FeatureCountExact(tbl: Table, planKey: string, fs: seq<string>, n: nat)
    requires IsFeatureList(tbl, planKey, fs)
    requires AllEntriesTranslate(tbl) && KeysListedUpTo(tbl.Keys, planKey, n)
    requires FeatureKey(planKey, n + 1) !in tbl
    ensures |fs| == n
  {
    ListedKeysArePresent(tbl, planKey, n);
    PresentPrefixIsListed(tbl, planKey, fs, n);
    MissingFeatureSuppressesLater(tbl, planKey, fs, n + 1);
  }

  /** The feature list is unique: the probe's result is the longest gap-free prefix. */
  lemma FeatureListUnique(tbl: Table, planKey: string, a: seq<string>, b: seq<string>)
    requires IsFeatureList(tbl, planKey, a) && IsFeatureList(tbl, planKey, b)
    ensures a == b
  {
    MissingFeatureSuppressesLater(tbl, planKey, a, |b| + 1);
    MissingFeatureSuppressesLater(tbl, planKey, b, |a| + 1);
  }

  // ----- Colours and labels -----

  /** `getCardBgColor`: the card background; the colour argument is ignored. */
  function GetCardBgColor(color: string, isPopular: bool): (r: string)
    ensures isPopular <==> r == "bg-purple-600 text-white"
    ensures !isPopular <==> r == "bg-card"
  {
    if isPopular then "bg-purple-600 text-white" else "bg-card"
  }

  /** The card background depends only on popularity. */
  lemma CardBgIgnoresColor(c1: string, c2: string, isPopular: bool)
    ensures GetCardBgColor(c1, isPopular) == GetCardBgColor(c2, isPopular)
  {
  }

  /** The icon background classes of the four known colours. */
  const IconColors: map<string, string> := map[
    "blue" := "bg-blue-100 dark:bg-blue-900/20",
    "purple" := "bg-purple-100 dark:bg-purple-900/20",
    "green" := "bg-green-100 dark:bg-green-900/20",
    "orange" := "bg-orange-100 dark:bg-orange-900/20"
  ]

  /** `getIconBgColor`: the known colour's class, `bg-muted` for any other colour. */
  function GetIconBgColor(color: string): (r: string)
    ensures color in IconColors ==> r == IconColors[color]
    ensures color !in IconColors <==> r == "bg-muted"
  {
    if color in IconColors then IconColors[color] else "bg-muted"
  }

  /** Distinct known colours get distinct icon classes. */
  lemma IconBgDistinct(c1: string, c2: string)
    requires c1 in IconColors && c2 in IconColors && c1 != c2
    ensures GetIconBgColor(c1) != GetIconBgColor(c2)
  {
  }

  /** The icon tile of a card: translucent white on the popular card, otherwise by colour. */
  function IconClass(plan: Plan): (r: string)
    ensures plan.isPopular ==> r == "bg-white/20"
    ensures !plan.isPopular ==> r == GetIconBgColor(plan.color)
  {
    if plan.isPopular then "bg-white/20" else GetIconBgColor(plan.color)
  }

  /** On the shipped plans only the popular card, avantgard, gets the translucent white
      tile; none falls back to `bg-muted`; and no two cards share a tile class. */
  lemma ShippedIconClasses()
    ensures forall i :: 0 <= i < |PricingPlans| ==> (IconClass(PricingPlans[i]) == "bg-white/20" <==> i == 1)
    ensures forall i :: 0 <= i < |PricingPlans| ==> IconClass(PricingPlans[i]) != "bg-muted"
    ensures forall i, j :: 0 <= i < j < |PricingPlans| ==> IconClass(PricingPlans[i]) != IconClass(PricingPlans[j])
  {
  }

  /** Every shipped plan has a known colour, so no card falls back to `bg-muted`. */
  lemma ShippedPlansHaveKnownColors()
    ensures forall i :: 0 <= i < |PricingPlans| ==> GetIconBgColor(PricingPlans[i].color) != "bg-muted"
  {
  }

  /** The translation key of a card's call-to-action. */
  function CtaKey(planKey: string): (k: string)
    ensures k == "common.contact" <==> planKey == "enterprise"
    ensures k != "common.contact" ==> k == "common.choose_plan"
  {
    if planKey == "enterprise" then "common.contact" else "common.choose_plan"
  }

  /** Among the shipped plans only the last card, enterprise, asks to be contacted; the
      other three offer to choose the plan. */
  lemma ShippedPlanCtas()
    ensures forall i :: 0 <= i < |PricingPlans| ==> (CtaKey(PricingPlans[i].key) == "common.contact" <==> i == 3)
    ensures forall i :: 0 <= i < |PricingPlans| && i != 3 ==> CtaKey(PricingPlans[i].key) == "common.choose_plan"
  {
  }

  /** The call-to-action label: "contact" on the enterprise card, "choose plan" elsewhere. */
  function CtaLabel(p: Provider, planKey: string): (r: string)
    ensures planKey == "enterprise" ==> r == T(p, "common.contact")
    ensures planKey != "enterprise" ==> r == T(p, "common.choose_plan")
  {
    T(p, CtaKey(planKey))
  }
}

=== FILE: shipped_features.dfy ===
/** What the pricing cards show with the shipped translation tables: their feature lists
    and their call-to-action labels. The facts about keys are proved once, on the common
    key set; each table then inherits them through its key-set equality. */
module ShippedFeatures {
  import opened Translation
  import opened TranslationTables
  import opened Pricing

  /** The number of features each shipped plan shows. */
  function ShippedFeatureCount(planKey: string): nat
  {
    if planKey == "avantgard" then 6 else 5
  }

  /** The first probe after each plan's last feature is not a key. */
  predicate LacksFinalProbes(keys: set<string>)
  {
    && "pricing.plans.startup.feature6" !in keys
    && "pricing.plans.avantgard.feature7" !in keys
    && "pricing.plans.quantum.feature6" !in keys
    && "pricing.plans.enterprise.feature6" !in keys
  }

  lemma UnionLacksFinalProbes(a: set<string>, b: set<string>)
    requires LacksFinalProbes(a) && LacksFinalProbes(b)
    ensures LacksFinalProbes(a + b)
  {
  }

  lemma NavigationLacksFinalProbes()
    ensures LacksFinalProbes(NavigationKeys)
  {
  }

  lemma PricingLacksFinalProbes()
    ensures LacksFinalProbes(PricingKeys)
  {
  }

  lemma StartupLacksFinalProbes()
    ensures LacksFinalProbes(StartupKeys)
  {
  }

  lemma AvantgardLacksFinalProbes()
    ensures LacksFinalProbes(AvantgardKeys)
  {
  }

  lemma QuantumLacksFinalProbes()
    ensures LacksFinalProbes(QuantumKeys)
  {
  }

  lemma EnterpriseLacksFinalProbes()
    ensures LacksFinalProbes(EnterpriseKeys)
  {
  }

  lemma CommonLacksFinalProbes()
    ensures LacksFinalProbes(CommonKeys)
  {
  }

  /** None of the final probes is a common key. */
  lemma TableLacksFinalProbes()
    ensures LacksFinalProbes(TableKeys)
  {
    NavigationLacksFinalProbes();
    PricingLacksFinalProbes();
    StartupLacksFinalProbes();
    AvantgardLacksFinalProbes();
    QuantumLacksFinalProbes();
    EnterpriseLacksFinalProbes();
    CommonLacksFinalProbes();
    UnionLacksFinalProbes(NavigationKeys, PricingKeys);
    UnionLacksFinalProbes(NavigationKeys + PricingKeys, StartupKeys);
    UnionLacksFinalProbes(NavigationKeys + PricingKeys + StartupKeys, AvantgardKeys);
    UnionLacksFinalProbes(NavigationKeys + PricingKeys + StartupKeys + AvantgardKeys, QuantumKeys);
    UnionLacksFinalProbes(NavigationKeys + PricingKeys + StartupKeys + AvantgardKeys + QuantumKeys, EnterpriseKeys);
    UnionLacksFinalProbes(NavigationKeys + PricingKeys + StartupKeys + AvantgardKeys + QuantumKeys + EnterpriseKeys, CommonKeys);
  }

  /** The startup feature keys, spelled out. */
  lemma StartupFeatureKey1()
    ensures FeatureKey("startup", 1) == "pricing.plans.startup.feature1"
  {
  }

  lemma StartupFeatureKey2()
    ensures FeatureKey("startup", 2) == "pricing.plans.startup.feature2"
  {
  }

  lemma StartupFeatureKey3()
    ensures FeatureKey("startup", 3) == "pricing.plans.startup.feature3"
  {
  }

  lemma StartupFeatureKey4()
    ensures FeatureKey("startup", 4) == "pricing.plans.startup.feature4"
  {
  }

  lemma StartupFeatureKey5()
    ensures FeatureKey("startup", 5) == "pricing.plans.startup.feature5"
  {
  }

  lemma StartupFeatureKey6()
    ensures FeatureKey("startup", 6) == "pricing.plans.startup.feature6"
  {
  }

  lemma StartupFeatureKeys()
    ensures FeatureKey("startup", 1) == "pricing.plans.startup.feature1"
    ensures FeatureKey("startup", 2) == "pricing.plans.startup.feature2"
    ensures FeatureKey("startup", 3) == "pricing.plans.startup.feature3"
    ensures FeatureKey("startup", 4) == "pricing.plans.startup.feature4"
    ensures FeatureKey("startup", 5) == "pricing.plans.startup.feature5"
    ensures FeatureKey("startup", 6) == "pricing.plans.startup.feature6"
  {
    StartupFeatureKey1();
    StartupFeatureKey2();
    StartupFeatureKey3();
    StartupFeatureKey4();
    StartupFeatureKey5();
    StartupFeatureKey6();
  }

  /** The common keys include startup features 1 to 5. */
  lemma TableListsStartup()
    ensures KeysListedUpTo(TableKeys, "startup", 5)
  {
    StartupFeatureKeys();
    assert KeysListedUpTo(StartupKeys, "startup", 1);
    assert KeysListedUpTo(StartupKeys, "startup", 2);
    assert KeysListedUpTo(StartupKeys, "startup", 3);
    assert KeysListedUpTo(StartupKeys, "startup", 4);
    assert KeysListedUpTo(StartupKeys, "startup", 5);
    ListedInUnion(NavigationKeys + PricingKeys, StartupKeys, "startup", 5);
    ListedInUnion(NavigationKeys + PricingKeys + StartupKeys, AvantgardKeys, "startup", 5);
    ListedInUnion(NavigationKeys + PricingKeys + StartupKeys + AvantgardKeys, QuantumKeys, "startup", 5);
    ListedInUnion(NavigationKeys + PricingKeys + StartupKeys + AvantgardKeys + QuantumKeys, EnterpriseKeys, "startup", 5);
    ListedInUnion(NavigationKeys + PricingKeys + StartupKeys + AvantgardKeys + QuantumKeys + EnterpriseKeys, CommonKeys, "startup", 5);
  }

  /** The avantgard feature keys, spelled out. */
  lemma AvantgardFeatureKey1()
    ensures FeatureKey("avantgard", 1) == "pricing.plans.avantgard.feature1"
  {
  }

  lemma AvantgardFeatureKey2()
    ensures FeatureKey("avantgard", 2) == "pricing.plans.avantgard.feature2"
  {
  }

  lemma AvantgardFeatureKey3()
    ensures FeatureKey("avantgard", 3) == "pricing.plans.avantgard.feature3"
  {
  }

  lemma AvantgardFeatureKey4()
    ensures FeatureKey("avantgard", 4) == "pricing.plans.avantgard.feature4"
  {
  }

  lemma AvantgardFeatureKey5()
    ensures FeatureKey("avantgard", 5) == "pricing.plans.avantgard.feature5"
  {
  }

  lemma AvantgardFeatureKey6()
    ensures FeatureKey("avantgard", 6) == "pricing.plans.avantgard.feature6"
  {
  }

  lemma AvantgardFeatureKey7()
    ensures FeatureKey("avantgard", 7) == "pricing.plans.avantgard.feature7"
  {
  }

  lemma AvantgardFeatureKeys()
    ensures FeatureKey("avantgard", 1) == "pricing.plans.avantgard.feature1"
    ensures FeatureKey("avantgard", 2) == "pricing.plans.avantgard.feature2"
    ensures FeatureKey("avantgard", 3) == "pricing.plans.avantgard.feature3"
    ensures FeatureKey("avantgard", 4) == "pricing.plans.avantgard.feature4"
    ensures FeatureKey("avantgard", 5) == "pricing.plans.avantgard.feature5"
    ensures FeatureKey("avantgard", 6) == "pricing.plans.avantgard.feature6"
    ensures FeatureKey("avantgard", 7) == "pricing.plans.avantgard.feature7"
  {
    AvantgardFeatureKey1();
    AvantgardFeatureKey2();
    AvantgardFeatureKey3();
    AvantgardFeatureKey4();
    AvantgardFeatureKey5();
    AvantgardFeatureKey6();
    AvantgardFeatureKey7();
  }

  /** The common keys include avantgard features 1 to 6. */
  lemma TableListsAvantgard()
    ensures KeysListedUpTo(TableKeys, "avantgard", 6)
  {
    AvantgardFeatureKeys();
    assert KeysListedUpTo(AvantgardKeys, "avantgard", 1);
    assert KeysListedUpTo(AvantgardKeys, "avantgard", 2);
    assert KeysListedUpTo(AvantgardKeys, "avantgard", 3);
    assert KeysListedUpTo(AvantgardKeys, "avantgard", 4);
    assert KeysListedUpTo(AvantgardKeys, "avantgard", 5);
    assert KeysListedUpTo(AvantgardKeys, "avantgard", 6);
    ListedInUnion(NavigationKeys + PricingKeys + StartupKeys, AvantgardKeys, "avantgard", 6);
    ListedInUnion(NavigationKeys + PricingKeys + StartupKeys + AvantgardKeys, QuantumKeys, "avantgard", 6);
    ListedInUnion(NavigationKeys + PricingKeys + StartupKeys + AvantgardKeys + QuantumKeys, EnterpriseKeys, "avantgard", 6);
    ListedInUnion(NavigationKeys + PricingKeys + StartupKeys + AvantgardKeys + QuantumKeys + EnterpriseKeys, CommonKeys, "avantgard", 6);
  }

  /** The quantum feature keys, spelled out. */
  lemma QuantumFeatureKey1()
    ensures FeatureKey("quantum", 1) == "pricing.plans.quantum.feature1"
  {
  }

  lemma QuantumFeatureKey2()
    ensures FeatureKey("quantum", 2) == "pricing.plans.quantum.feature2"
  {
  }

  lemma QuantumFeatureKey3()
    ensures FeatureKey("quantum", 3) == "pricing.plans.quantum.feature3"
  {
  }

  lemma QuantumFeatureKey4()
    ensures FeatureKey("quantum", 4) == "pricing.plans.quantum.feature4"
  {
  }

  lemma QuantumFeatureKey5()
    ensures FeatureKey("quantum", 5) == "pricing.plans.quantum.feature5"
  {
  }

  lemma QuantumFeatureKey6()
    ensures FeatureKey("quantum", 6) == "pricing.plans.quantum.feature6"
  {
  }

  lemma QuantumFeatureKeys()
    ensures FeatureKey("quantum", 1) == "pricing.plans.quantum.feature1"
    ensures FeatureKey("quantum", 2) == "pricing.plans.quantum.feature2"
    ensures FeatureKey("quantum", 3) == "pricing.plans.quantum.feature3"
    ensures FeatureKey("quantum", 4) == "pricing.plans.quantum.feature4"
    ensures FeatureKey("quantum", 5) == "pricing.plans.quantum.feature5"
    ensures FeatureKey("quantum", 6) == "pricing.plans.quantum.feature6"
  {
    QuantumFeatureKey1();
    QuantumFeatureKey2();
    QuantumFeatureKey3();
    QuantumFeatureKey4();
    QuantumFeatureKey5();
    QuantumFeatureKey6();
  }

  /** The common keys include quantum features 1 to 5. */
  lemma TableListsQuantum()
    ensures KeysListedUpTo(TableKeys, "quantum", 5)
  {
    QuantumFeatureKeys();
    assert KeysListedUpTo(QuantumKeys, "quantum", 1);
    assert KeysListedUpTo(QuantumKeys, "quantum", 2);
    assert KeysListedUpTo(QuantumKeys, "quantum", 3);
    assert KeysListedUpTo(QuantumKeys, "quantum", 4);
    assert KeysListedUpTo(QuantumKeys, "quantum", 5);
    ListedInUnion(NavigationKeys + PricingKeys + StartupKeys + AvantgardKeys, QuantumKeys, "quantum", 5);
    ListedInUnion(NavigationKeys + PricingKeys + StartupKeys + AvantgardKeys + QuantumKeys, EnterpriseKeys, "quantum", 5);
    ListedInUnion(NavigationKeys + PricingKeys + StartupKeys + AvantgardKeys + QuantumKeys + EnterpriseKeys, CommonKeys, "quantum", 5);
  }

  /** The enterprise feature keys, spelled out. */
  lemma EnterpriseFeatureKey1()
    ensures FeatureKey("enterprise", 1) == "pricing.plans.enterprise.feature1"
  {
  }

  lemma EnterpriseFeatureKey2()
    ensures FeatureKey("enterprise", 2) == "pricing.plans.enterprise.feature2"
  {
  }

  lemma EnterpriseFeatureKey3()
    ensures FeatureKey("enterprise", 3) == "pricing.plans.enterprise.feature3"
  {
  }

  lemma EnterpriseFeatureKey4()
    ensures FeatureKey("enterprise", 4) == "pricing.plans.enterprise.feature4"
  {
  }

  lemma EnterpriseFeatureKey5()
    ensures FeatureKey("enterprise", 5) == "pricing.plans.enterprise.feature5"
  {
  }

  lemma EnterpriseFeatureKey6()
    ensures FeatureKey("enterprise", 6) == "pricing.plans.enterprise.feature6"
  {
  }

  lemma EnterpriseFeatureKeys()
    ensures FeatureKey("enterprise", 1) == "pricing.plans.enterprise.feature1"
    ensures FeatureKey("enterprise", 2) == "pricing.plans.enterprise.feature2"
    ensures FeatureKey("enterprise", 3) == "pricing.plans.enterprise.feature3"
    ensures FeatureKey("enterprise", 4) == "pricing.plans.enterprise.feature4"
    ensures FeatureKey("enterprise", 5) == "pricing.plans.enterprise.feature5"
    ensures FeatureKey("enterprise", 6) == "pricing.plans.enterprise.feature6"
  {
    EnterpriseFeatureKey1();
    EnterpriseFeatureKey2();
    EnterpriseFeatureKey3();
    EnterpriseFeatureKey4();
    EnterpriseFeatureKey5();
    EnterpriseFeatureKey6();
  }

  /** The common keys include enterprise features 1 to 5. */
  lemma TableListsEnterprise()
    ensures KeysListedUpTo(TableKeys, "enterprise", 5)
  {
    EnterpriseFeatureKeys();
    assert KeysListedUpTo(EnterpriseKeys, "enterprise", 1);
    assert KeysListedUpTo(EnterpriseKeys, "enterprise", 2);
    assert KeysListedUpTo(EnterpriseKeys, "enterprise", 3);
    assert KeysListedUpTo(EnterpriseKeys, "enterprise", 4);
    assert KeysListedUpTo(EnterpriseKeys, "enterprise", 5);
    ListedInUnion(NavigationKeys + PricingKeys + StartupKeys + AvantgardKeys + QuantumKeys, EnterpriseKeys, "enterprise", 5);
    ListedInUnion(NavigationKeys + PricingKeys + StartupKeys + AvantgardKeys + QuantumKeys + EnterpriseKeys, CommonKeys, "enterprise", 5);
  }

  /** The common keys include every plan's shipped features. */
  predicate PlansListed(keys: set<string>)
  {
    && KeysListedUpTo(keys, "startup", 5)
    && KeysListedUpTo(keys, "avantgard", 6)
    && KeysListedUpTo(keys, "quantum", 5)
    && KeysListedUpTo(keys, "enterprise", 5)
  }

  lemma TableListsPlans()
    ensures PlansListed(TableKeys)
  {
    TableListsStartup();
    TableListsAvantgard();
    TableListsQuantum();
    TableListsEnterprise();
  }

  /** On any table whose entries translate, whose keys include each plan's features and
      lack the probe after the last one, startup, quantum and enterprise show five features
      and the popular plan, avantgard, shows six. */
  lemma FeatureCountsOnListedKeys(tbl: Table, i: nat, fs: seq<string>)
    requires AllEntriesTranslate(tbl) && PlansListed(tbl.Keys) && LacksFinalProbes(tbl.Keys)
    requires i < |PricingPlans|
    requires IsFeatureList(tbl, PricingPlans[i].key, fs)
    ensures |fs| == ShippedFeatureCount(PricingPlans[i].key)
    ensures |fs| == (if PricingPlans[i].isPopular then 6 else 5)
  {
    if i == 0 {
      StartupFeatureKey6();
      FeatureCountExact(tbl, "startup", fs, 5);
    } else if i == 1 {
      AvantgardFeatureKey7();
      FeatureCountExact(tbl, "avantgard", fs, 6);
    } else if i == 2 {
      QuantumFeatureKey6();
      FeatureCountExact(tbl, "quantum", fs, 5);
    } else {
      EnterpriseFeatureKey6();
      FeatureCountExact(tbl, "enterprise", fs, 5);
    }
  }

  /** The feature counts with the ru table. */
  lemma RuFeatureCounts(i: nat, fs: seq<string>)
    requires i < |PricingPlans|
    requires IsFeatureList(RuTable, PricingPlans[i].key, fs)
    ensures |fs| == ShippedFeatureCount(PricingPlans[i].key)
  {
    RuKeys();
    RuTableTranslates();
    TableListsPlans();
    TableLacksFinalProbes();
    FeatureCountsOnListedKeys(RuTable, i, fs);
  }

  /** The feature counts with the en table. */
  lemma EnFeatureCounts(i: nat, fs: seq<string>)
    requires i < |PricingPlans|
    requires IsFeatureList(EnTable, PricingPlans[i].key, fs)
    ensures |fs| == ShippedFeatureCount(PricingPlans[i].key)
  {
    EnKeys();
    EnTableTranslates();
    TableListsPlans();
    TableLacksFinalProbes();
    FeatureCountsOnListedKeys(EnTable, i, fs);
  }

  /** The feature counts with the kz table. */
  lemma KzFeatureCounts(i: nat, fs: seq<string>)
    requires i < |PricingPlans|
    requires IsFeatureList(KzTable, PricingPlans[i].key, fs)
    ensures |fs| == ShippedFeatureCount(PricingPlans[i].key)
  {
    KzKeys();
    KzTableTranslates();
    TableListsPlans();
    TableLacksFinalProbes();
    FeatureCountsOnListedKeys(KzTable, i, fs);
  }

  /** Both call-to-action keys are common keys. */
  lemma CtaKeysAreCommon()
    ensures "common.contact" in TableKeys && "common.choose_plan" in TableKeys
  {
  }

  /** With a table of the common key set whose entries translate, which is what each
      shipped table is, every card's button shows the table's translation of its key and
      never the bare key. */
  lemma CtaLabelsTranslate(p: Provider, planKey: string)
    requires p.tables.TableFor(p.language).Keys == TableKeys
    requires AllEntriesTranslate(p.tables.TableFor(p.language))
    ensures CtaLabel(p, planKey) == p.tables.TableFor(p.language)[CtaKey(planKey)]
    ensures CtaLabel(p, planKey) != CtaKey(planKey)
  {
    CtaKeysAreCommon();
  }
}

=== FILE: translation.dfy ===
/** The translation context: a fixed table per language, the current language as the only
    state, and a lookup `t` that falls back to the key itself. */
module Translation {
  import opened Wrappers

  /** The three supported languages; the type admits no other value. */
  datatype Language = Ru | En | Kz

  /** The language code as the source spells it. */
  function Code(l: Language): string
  {
    match l
    case Ru => "ru"
    case En => "en"
    case Kz => "kz"
  }

  /** A language's table: translation key to translated text. */
  type Table = map<string, string>

  /** One table per language. */
  datatype Translations = Translations(ru: Table, en: Table, kz: Table)
  {
    function TableFor(l: Language): Table
    {
      match l
      case Ru => ru
      case En => en
      case Kz => kz
    }
  }

  /** A key "has a translation" when its entry exists and is a non-empty string
      (the empty string is falsy and falls back). */
  predicate HasEntry(tbl: Table, key: string)
  {
    key in tbl && tbl[key] != ""
  }

  /** `t` over one table: the entry when present and non-empty, otherwise the key. */
  function Lookup(tbl: Table, key: string): (r: string)
    ensures HasEntry(tbl, key) ==> r == tbl[key]
    ensures !HasEntry(tbl, key) ==> r == key
    ensures r == "" ==> key == ""
    ensures r == key || key in tbl
  {
    if key in tbl && tbl[key] != "" then tbl[key] else key
  }

  /** The lookup "fell back" when it returned its own key; this is what the feature
      probe checks. */
  predicate FallsBack(tbl: Table, key: string)
  {
    Lookup(tbl, key) == key
  }

  /** A lookup falls back exactly when the key has no entry, or its entry is the key
      itself (indistinguishable from a fallback). */
  lemma FallsBackIff(tbl: Table, key: string)
    ensures FallsBack(tbl, key) <==> (!HasEntry(tbl, key) || tbl[key] == key)
  {
  }

  /** Every entry of the table is a real translation: non-empty and different from its key,
      so that looking up a key the table has never falls back. */
  ghost predicate AllEntriesTranslate(tbl: Table)
  {
    forall k :: k in tbl ==> tbl[k] != "" && tbl[k] != k
  }

  /** On a table whose entries all translate, a lookup falls back exactly on absent keys. */
  lemma FallsBackOnlyWhenAbsent(tbl: Table, key: string)
    requires AllEntriesTranslate(tbl)
    ensures FallsBack(tbl, key) <==> key !in tbl
  {
  }

  /** Merging two tables whose entries translate gives a table whose entries translate. */
  lemma MergeTranslates(a: Table, b: Table)
    requires AllEntriesTranslate(a) && AllEntriesTranslate(b)
    ensures AllEntriesTranslate(a + b)
  {
  }

  /** The provider's state: only the current language changes; the tables are constant. */
  datatype Provider = Provider(tables: Translations, language: Language)

  /** The provider as mounted: language "ru". */
  function InitialProvider(tables: Translations): (p: Provider)
    ensures p.language == Ru && Code(p.language) == "ru"
    ensures p.tables == tables
  {
    Provider(tables, Ru)
  }

  /** `setLanguage`: only the language changes. */
  function SetLanguage(p: Provider, l: Language): (p': Provider)
    ensures p'.language == l
    ensures p'.tables == p.tables
  {
    p.(language := l)
  }

  /** `t(key)` as handed out by the provider: a lookup in the current language's table. */
  function T(p: Provider, key: string): (r: string)
    ensures HasEntry(p.tables.TableFor(p.language), key) ==> r == p.tables.TableFor(p.language)[key]
    ensures !HasEntry(p.tables.TableFor(p.language), key) ==> r == key
  {
    Lookup(p.tables.TableFor(p.language), key)
  }

  /** Switching language changes which table `t` reads and nothing else: `t` after the
      switch is exactly the new language's lookup, whatever language came before. */
  lemma SetLanguageOnlySwitchesTable(p: Provider, l: Language, key: string)
    ensures T(SetLanguage(p, l), key) == Lookup(p.tables.TableFor(l), key)
    ensures SetLanguage(p, l).tables == p.tables
    ensures T(SetLanguage(p, l), key) == T(SetLanguage(InitialProvider(p.tables), l), key)
  {
  }

  /** What a component obtains from the context: the provider's value, or nothing when it is
      rendered outside a provider. */
  const OutsideProviderMessage := "useLanguage must be used within a LanguageProvider"

  /** `useLanguage`: the context value, or an error outside a provider. */
  function UseLanguage(context: Option<Provider>): (r: Result<Provider>)
    ensures context.None? <==> r.Failure?
    ensures r.Failure? ==> r.error == OutsideProviderMessage
    ensures context.Some? ==> r == Success(context.value)
  {
    match context
    case None => Failure(OutsideProviderMessage)
    case Some(p) => Success(p)
  }
}

=== FILE: translation_tables.dfy ===
/** The three translation tables shipped with the provider, as constant data. Each table is
    the union of the same seven sections, in the order the source lists them. */
module TranslationTables {
  import opened Translation

  /** Ru: navigation and sign-in labels. */
  const RuNavigation: Table := map[
    "nav.services" := "Услуги",
    "nav.news" := "Новости",
    "nav.about" := "О компании",
    "nav.contacts" := "Контакты",
    "nav.dashboard" := "Панель управления",
    "auth.login" := "Войти",
    "auth.logout" := "Выйти"
  ]

  /** Ru: general pricing copy. */
  const RuPricing: Table := map[
    "pricing.title" := "Планы IT-решений для вашего бизнеса",
    "pricing.subtitle" := "Выберите подходящий план технологических решений для цифровой трансформации вашей компании и внедрения ESG стандартов",
    "pricing.details" := "Посмотреть, что включает ▼",
    "pricing.additional.title" := "Дополнительные преимущества наших планов",
    "pricing.additional.subtitle" := "Независимо от выбранного плана, вы получаете полный спектр поддержки",
    "pricing.consultation.title" := "Персональная консультация",
    "pricing.consultation.desc" := "Бесплатная первичная консультация с экспертом по ESG для анализа ваших потребностей",
    "pricing.training.title" := "Обучение команды",
    "pricing.training.desc" := "Комплексное обучение ваших сотрудников работе с ESG системами и стандартами",
    "pricing.security.title" := "Безопасность данных",
    "pricing.security.desc" := "Высочайший уровень защиты корпоративных данных согласно международным стандартам",
    "pricing.trial" := "Все планы включают бесплатный пробный период 14 дней",
    "pricing.payment" := "Возможна оплата в рассрочку • Скидки для образовательных учреждений • Гибкие условия для стартапов"
  ]

  /** Ru: the startup plan. */
  const RuStartup: Table := map[
    "pricing.plans.startup.name" := "Стартап",
    "pricing.plans.startup.subtitle" := "Базовые IT-решения",
    "pricing.plans.startup.employees" := "до 50 сотрудников",
    "pricing.plans.startup.feature1" := "Базовая ESG диагностика",
    "pricing.plans.startup.feature2" := "Облачное хранение 500 ГБ",
    "pricing.plans.startup.feature3" := "Техподдержка 24/7",
    "pricing.plans.startup.feature4" := "Автоматические отчеты",
    "pricing.plans.startup.feature5" := "API интеграция"
  ]

  /** Ru: the avantgard plan. */
  const RuAvantgard: Table := map[
    "pricing.plans.avantgard.name" := "Avantgard",
    "pricing.plans.avantgard.subtitle" := "Продвинутые решения с ИИ",
    "pricing.plans.avantgard.employees" := "50-500 сотрудников",
    "pricing.plans.avantgard.feature1" := "ESG аналитика с ИИ",
    "pricing.plans.avantgard.feature2" := "Облачное хранение 500 ГБ",
    "pricing.plans.avantgard.feature3" := "Техподдержка 24/7",
    "pricing.plans.avantgard.feature4" := "Автоматизированные отчеты",
    "pricing.plans.avantgard.feature5" := "API интеграция",
    "pricing.plans.avantgard.feature6" := "ИИ блокчейн"
  ]

  /** Ru: the quantum plan. */
  const RuQuantum: Table := map[
    "pricing.plans.quantum.name" := "Quantum",
    "pricing.plans.quantum.subtitle" := "Интеллектуальное управление",
    "pricing.plans.quantum.employees" := "500+ сотрудников",
    "pricing.plans.quantum.feature1" := "Полная ESG экосистема",
    "pricing.plans.quantum.feature2" := "Неограниченное хранение",
    "pricing.plans.quantum.feature3" := "Приоритетная поддержка",
    "pricing.plans.quantum.feature4" := "Персональный менеджер",
    "pricing.plans.quantum.feature5" := "Корпоративная интеграция"
  ]

  /** Ru: the enterprise plan. */
  const RuEnterprise: Table := map[
    "pricing.plans.enterprise.name" := "Enterprise+",
    "pricing.plans.enterprise.subtitle" := "Эксклюзивные решения",
    "pricing.plans.enterprise.employees" := "Корпорации и госсектор",
    "pricing.plans.enterprise.feature1" := "Индивидуальная разработка",
    "pricing.plans.enterprise.feature2" := "Выделенная инфраструктура",
    "pricing.plans.enterprise.feature3" := "Персональная команда",
    "pricing.plans.enterprise.feature4" := "SLA 99.9%",
    "pricing.plans.enterprise.feature5" := "Комплексная безопасность"
  ]

  /** Ru: shared labels. */
  const RuCommon: Table := map[
    "common.choose_plan" := "Выбрать план",
    "common.contact" := "Связаться",
    "common.popular" := "Популярный",
    "common.language" := "Язык",
    "common.theme" := "Тема",
    "common.light_mode" := "Светлая тема",
    "common.dark_mode" := "Темная тема",
    "common.menu" := "Меню",
    "common.navigation" := "Навигация"
  ]

  /** The ru table. */
  const RuTable: Table := RuNavigation + RuPricing + RuStartup + RuAvantgard + RuQuantum + RuEnterprise + RuCommon

  /** En: navigation and sign-in labels. */
  const EnNavigation: Table := map[
    "nav.services" := "Services",
    "nav.news" := "News",
    "nav.about" := "About",
    "nav.contacts" := "Contacts",
    "nav.dashboard" := "Dashboard",
    "auth.login" := "Login",
    "auth.logout" := "Logout"
  ]

  /** En: general pricing copy. */
  const EnPricing: Table := map[
    "pricing.title" := "IT Solution Plans for Your Business",
    "pricing.subtitle" := "Choose the right technology solution plan for your company's digital transformation and ESG standards implementation",
    "pricing.details" := "See what's included ▼",
    "pricing.additional.title" := "Additional Benefits of Our Plans",
    "pricing.additional.subtitle" := "Regardless of the plan you choose, you get full spectrum support",
    "pricing.consultation.title" := "Personal Consultation",
    "pricing.consultation.desc" := "Free initial consultation with ESG expert to analyze your needs",
    "pricing.training.title" := "Team Training",
    "pricing.training.desc" := "Comprehensive training for your employees on ESG systems and standards",
    "pricing.security.title" := "Data Security",
    "pricing.security.desc" := "Highest level of corporate data protection according to international standards",
    "pricing.trial" := "All plans include a free 14-day trial period",
    "pricing.payment" := "Installment payment available • Discounts for educational institutions • Flexible conditions for startups"
  ]

  /** En: the startup plan. */
  const EnStartup: Table := map[
    "pricing.plans.startup.name" := "Startup",
    "pricing.plans.startup.subtitle" := "Basic IT Solutions",
    "pricing.plans.startup.employees" := "up to 50 employees",
    "pricing.plans.startup.feature1" := "Basic ESG diagnostics",
    "pricing.plans.startup.feature2" := "500 GB cloud storage",
    "pricing.plans.startup.feature3" := "24/7 technical support",
    "pricing.plans.startup.feature4" := "Automated reports",
    "pricing.plans.startup.feature5" := "API integration"
  ]

  /** En: the avantgard plan. */
  const EnAvantgard: Table := map[
    "pricing.plans.avantgard.name" := "Avantgard",
    "pricing.plans.avantgard.subtitle" := "Advanced AI Solutions",
    "pricing.plans.avantgard.employees" := "50-500 employees",
    "pricing.plans.avantgard.feature1" := "ESG analytics with AI",
    "pricing.plans.avantgard.feature2" := "500 GB cloud storage",
    "pricing.plans.avantgard.feature3" := "24/7 technical support",
    "pricing.plans.avantgard.feature4" := "Automated reports",
    "pricing.plans.avantgard.feature5" := "API integration",
    "pricing.plans.avantgard.feature6" := "AI blockchain"
  ]

  /** En: the quantum plan. */
  const EnQuantum: Table := map[
    "pricing.plans.quantum.name" := "Quantum",
    "pricing.plans.quantum.subtitle" := "Intelligent Management",
    "pricing.plans.quantum.employees" := "500+ employees",
    "pricing.plans.quantum.feature1" := "Full ESG ecosystem",
    "pricing.plans.quantum.feature2" := "Unlimited storage",
    "pricing.plans.quantum.feature3" := "Priority support",
    "pricing.plans.quantum.feature4" := "Personal manager",
    "pricing.plans.quantum.feature5" := "Corporate integration"
  ]

  /** En: the enterprise plan. */
  const EnEnterprise: Table := map[
    "pricing.plans.enterprise.name" := "Enterprise+",
    "pricing.plans.enterprise.subtitle" := "Exclusive Solutions",
    "pricing.plans.enterprise.employees" := "Corporations and government",
    "pricing.plans.enterprise.feature1" := "Custom development",
    "pricing.plans.enterprise.feature2" := "Dedicated infrastructure",
    "pricing.plans.enterprise.feature3" := "Personal team",
    "pricing.plans.enterprise.feature4" := "99.9% SLA",
    "pricing.plans.enterprise.feature5" := "Comprehensive security"
  ]

  /** En: shared labels. */
  const EnCommon: Table := map[
    "common.choose_plan" := "Choose Plan",
    "common.contact" := "Contact",
    "common.popular" := "Popular",
    "common.language" := "Language",
    "common.theme" := "Theme",
    "common.light_mode" := "Light Theme",
    "common.dark_mode" := "Dark Theme",
    "common.menu" := "Menu",
    "common.navigation" := "Navigation"
  ]

  /** The en table. */
  const EnTable: Table := EnNavigation + EnPricing + EnStartup + EnAvantgard + EnQuantum + EnEnterprise + EnCommon

  /** Kz: navigation and sign-in labels. */
  const KzNavigation: Table := map[
    "nav.services" := "Қызметтер",
    "nav.news" := "Жаңалықтар",
    "nav.about" := "Компания туралы",
    "nav.contacts" := "Байланыстар",
    "nav.dashboard" := "Басқару панелі",
    "auth.login" := "Кіру",
    "auth.logout" := "Шығу"
  ]

  /** Kz: general pricing copy. */
  const KzPricing: Table := map[
    "pricing.title" := "Сіздің бизнесіңіз үшін IT шешімдер жоспарлары",
    "pricing.subtitle" := "Компанияңыздың цифрлық трансформациясы және ESG стандарттарын енгізу үшін дұрыс технологиялық шешім жоспарын таңдаңыз",
    "pricing.details" := "Не кіретінін көру ▼",
    "pricing.additional.title" := "Біздің жоспарларымыздың қосымша артықшылықтары",
    "pricing.additional.subtitle" := "Қай жоспарды таңдасаңыз да, толық спектрлі қолдау аласыз",
    "pricing.consultation.title" := "Жеке кеңес",
    "pricing.consultation.desc" := "Сіздің қажеттіліктеріңізді талдау үшін ESG сарапшысымен тегін алғашқы кеңес",
    "pricing.training.title" := "Команда дайындау",
    "pricing.training.desc" := "Қызметкерлеріңізді ESG жүйелері мен стандарттарымен жұмыс істеуге кешенді дайындау",
    "pricing.security.title" := "Деректер қауіпсіздігі",
    "pricing.security.desc" := "Халықаралық стандарттарға сәйкес корпоративтік деректерді қорғаудың ең жоғары деңгейі",
    "pricing.trial" := "Барлық жоспарларға 14 күндік тегін сынақ кезеңі кіреді",
    "pricing.payment" := "Бөліп төлеу мүмкін • Білім беру мекемелеріне жеңілдіктер • Стартаптар үшін икемді шарттар"
  ]

  /** Kz: the startup plan. */
  const KzStartup: Table := map[
    "pricing.plans.startup.name" := "Стартап",
    "pricing.plans.startup.subtitle" := "Негізгі IT шешімдері",
    "pricing.plans.startup.employees" := "50-ге дейін қызметкерлер",
    "pricing.plans.startup.feature1" := "Негізгі ESG диагностикасы",
    "pricing.plans.startup.feature2" := "500 ГБ бұлтты сақтау",
    "pricing.plans.startup.feature3" := "24/7 техникалық қолдау",
    "pricing.plans.startup.feature4" := "Автоматты есептер",
    "pricing.plans.startup.feature5" := "API интеграциясы"
  ]

  /** Kz: the avantgard plan. */
  const KzAvantgard: Table := map[
    "pricing.plans.avantgard.name" := "Avantgard",
    "pricing.plans.avantgard.subtitle" := "ЖИ-мен кеңейтілген шешімдер",
    "pricing.plans.avantgard.employees" := "50-500 қызметкерлер",
    "pricing.plans.avantgard.feature1" := "ЖИ-мен ESG аналитикасы",
    "pricing.plans.avantgard.feature2" := "500 ГБ бұлтты сақтау",
    "pricing.plans.avantgard.feature3" := "24/7 техникалық қолдау",
    "pricing.plans.avantgard.feature4" := "Автоматталған есептер",
    "pricing.plans.avantgard.feature5" := "API интеграциясы",
    "pricing.plans.avantgard.feature6" := "ЖИ блокчейн"
  ]

  /** Kz: the quantum plan. */
  const KzQuantum: Table := map[
    "pricing.plans.quantum.name" := "Quantum",
    "pricing.plans.quantum.subtitle" := "Ақылды басқару",
    "pricing.plans.quantum.employees" := "500+ қызметкерлер",
    "pricing.plans.quantum.feature1" := "Толық ESG экожүйесі",
    "pricing.plans.quantum.feature2" := "Шексіз сақтау",
    "pricing.plans.quantum.feature3" := "Басымдықты қолдау",
    "pricing.plans.quantum.feature4" := "Жеке менеджер",
    "pricing.plans.quantum.feature5" := "Корпоративтік интеграция"
  ]

  /** Kz: the enterprise plan. */
  const KzEnterprise: Table := map[
    "pricing.plans.enterprise.name" := "Enterprise+",
    "pricing.plans.enterprise.subtitle" := "Эксклюзивті шешімдер",
    "pricing.plans.enterprise.employees" := "Корпорациялар мен мемсектор",
    "pricing.plans.enterprise.feature1" := "Жеке әзірлеу",
    "pricing.plans.enterprise.feature2" := "Арнайы инфрақұрылым",
    "pricing.plans.enterprise.feature3" := "Жеке команда",
    "pricing.plans.enterprise.feature4" := "99.9% SLA",
    "pricing.plans.enterprise.feature5" := "Кешенді қауіпсіздік"
  ]

  /** Kz: shared labels. */
  const KzCommon: Table := map[
    "common.choose_plan" := "Жоспар таңдау",
    "common.contact" := "Байланысу",
    "common.popular" := "Танымал",
    "common.language" := "Тіл",
    "common.theme" := "Тема",
    "common.light_mode" := "Ашық тема",
    "common.dark_mode" := "Қараңғы тема",
    "common.menu" := "Мәзір",
    "common.navigation" := "Навигация"
  ]

  /** The kz table. */
  const KzTable: Table := KzNavigation + KzPricing + KzStartup + KzAvantgard + KzQuantum + KzEnterprise + KzCommon

  /** The keys of the navigation and sign-in labels. */
  const NavigationKeys: set<string> := {
    "nav.services",
    "nav.news",
    "nav.about",
    "nav.contacts",
    "nav.dashboard",
    "auth.login",
    "auth.logout"
  }

  /** The keys of the general pricing copy. */
  const PricingKeys: set<string> := {
    "pricing.title",
    "pricing.subtitle",
    "pricing.details",
    "pricing.additional.title",
    "pricing.additional.subtitle",
    "pricing.consultation.title",
    "pricing.consultation.desc",
    "pricing.training.title",
    "pricing.training.desc",
    "pricing.security.title",
    "pricing.security.desc",
    "pricing.trial",
    "pricing.payment"
  }

  /** The keys of the startup plan. */
  const StartupKeys: set<string> := {
    "pricing.plans.startup.name",
    "pricing.plans.startup.subtitle",
    "pricing.plans.startup.employees",
    "pricing.plans.startup.feature1",
    "pricing.plans.startup.feature2",
    "pricing.plans.startup.feature3",
    "pricing.plans.startup.feature4",
    "pricing.plans.startup.feature5"
  }

  /** The keys of the avantgard plan. */
  const AvantgardKeys: set<string> := {
    "pricing.plans.avantgard.name",
    "pricing.plans.avantgard.subtitle",
    "pricing.plans.avantgard.employees",
    "pricing.plans.avantgard.feature1",
    "pricing.plans.avantgard.feature2",
    "pricing.plans.avantgard.feature3",
    "pricing.plans.avantgard.feature4",
    "pricing.plans.avantgard.feature5",
    "pricing.plans.avantgard.feature6"
  }

  /** The keys of the quantum plan. */
  const QuantumKeys: set<string> := {
    "pricing.plans.quantum.name",
    "pricing.plans.quantum.subtitle",
    "pricing.plans.quantum.employees",
    "pricing.plans.quantum.feature1",
    "pricing.plans.quantum.feature2",
    "pricing.plans.quantum.feature3",
    "pricing.plans.quantum.feature4",
    "pricing.plans.quantum.feature5"
  }

  /** The keys of the enterprise plan. */
  const EnterpriseKeys: set<string> := {
    "pricing.plans.enterprise.name",
    "pricing.plans.enterprise.subtitle",
    "pricing.plans.enterprise.employees",
    "pricing.plans.enterprise.feature1",
    "pricing.plans.enterprise.feature2",
    "pricing.plans.enterprise.feature3",
    "pricing.plans.enterprise.feature4",
    "pricing.plans.enterprise.feature5"
  }

  /** The keys of the shared labels. */
  const CommonKeys: set<string> := {
    "common.choose_plan",
    "common.contact",
    "common.popular",
    "common.language",
    "common.theme",
    "common.light_mode",
    "common.dark_mode",
    "common.menu",
    "common.navigation"
  }

  /** The keys every table defines. */
  const TableKeys: set<string> := NavigationKeys + PricingKeys + StartupKeys + AvantgardKeys + QuantumKeys + EnterpriseKeys + CommonKeys

  /** Merging tables merges their key sets. */
  lemma MergeKeys(a: Table, b: Table, ka: set<string>, kb: set<string>)
    requires a.Keys == ka && b.Keys == kb
    ensures (a + b).Keys == ka + kb
  {
  }

  lemma RuNavigationKeys()
    ensures RuNavigation.Keys == NavigationKeys
  {
  }

  lemma RuPricingKeys()
    ensures RuPricing.Keys == PricingKeys
  {
  }

  lemma RuStartupKeys()
    ensures RuStartup.Keys == StartupKeys
  {
  }

  lemma RuAvantgardKeys()
    ensures RuAvantgard.Keys == AvantgardKeys
  {
  }

  lemma RuQuantumKeys()
    ensures RuQuantum.Keys == QuantumKeys
  {
  }

  lemma RuEnterpriseKeys()
    ensures RuEnterprise.Keys == EnterpriseKeys
  {
  }

  lemma RuCommonKeys()
    ensures RuCommon.Keys == CommonKeys
  {
  }

  lemma EnNavigationKeys()
    ensures EnNavigation.Keys == NavigationKeys
  {
  }

  lemma EnPricingKeys()
    ensures EnPricing.Keys == PricingKeys
  {
  }

  lemma EnStartupKeys()
    ensures EnStartup.Keys == StartupKeys
  {
  }

  lemma EnAvantgardKeys()
    ensures EnAvantgard.Keys == AvantgardKeys
  {
  }

  lemma EnQuantumKeys()
    ensures EnQuantum.Keys == QuantumKeys
  {
  }

  lemma EnEnterpriseKeys()
    ensures EnEnterprise.Keys == EnterpriseKeys
  {
  }

  lemma EnCommonKeys()
    ensures EnCommon.Keys == CommonKeys
  {
  }

  lemma KzNavigationKeys()
    ensures KzNavigation.Keys == NavigationKeys
  {
  }

  lemma KzPricingKeys()
    ensures KzPricing.Keys == PricingKeys
  {
  }

  lemma KzStartupKeys()
    ensures KzStartup.Keys == StartupKeys
  {
  }

  lemma KzAvantgardKeys()
    ensures KzAvantgard.Keys == AvantgardKeys
  {
  }

  lemma KzQuantumKeys()
    ensures KzQuantum.Keys == QuantumKeys
  {
  }

  lemma KzEnterpriseKeys()
    ensures KzEnterprise.Keys == EnterpriseKeys
  {
  }

  lemma KzCommonKeys()
    ensures KzCommon.Keys == CommonKeys
  {
  }

  /** The ru table defines exactly the common keys. */
  lemma RuKeys()
    ensures RuTable.Keys == TableKeys
  {
    RuNavigationKeys();
    RuPricingKeys();
    RuStartupKeys();
    RuAvantgardKeys();
    RuQuantumKeys();
    RuEnterpriseKeys();
    RuCommonKeys();
    MergeKeys(RuNavigation, RuPricing, NavigationKeys, PricingKeys);
    MergeKeys(RuNavigation + RuPricing, RuStartup, NavigationKeys + PricingKeys, StartupKeys);
    MergeKeys(RuNavigation + RuPricing + RuStartup, RuAvantgard, NavigationKeys + PricingKeys + StartupKeys, AvantgardKeys);
    MergeKeys(RuNavigation + RuPricing + RuStartup + RuAvantgard, RuQuantum, NavigationKeys + PricingKeys + StartupKeys + AvantgardKeys, QuantumKeys);
    MergeKeys(RuNavigation + RuPricing + RuStartup + RuAvantgard + RuQuantum, RuEnterprise, NavigationKeys + PricingKeys + StartupKeys + AvantgardKeys + QuantumKeys, EnterpriseKeys);
    MergeKeys(RuNavigation + RuPricing + RuStartup + RuAvantgard + RuQuantum + RuEnterprise, RuCommon, NavigationKeys + PricingKeys + StartupKeys + AvantgardKeys + QuantumKeys + EnterpriseKeys, CommonKeys);
  }

  /** The en table defines exactly the common keys. */
  lemma EnKeys()
    ensures EnTable.Keys == TableKeys
  {
    EnNavigationKeys();
    EnPricingKeys();
    EnStartupKeys();
    EnAvantgardKeys();
    EnQuantumKeys();
    EnEnterpriseKeys();
    EnCommonKeys();
    MergeKeys(EnNavigation, EnPricing, NavigationKeys, PricingKeys);
    MergeKeys(EnNavigation + EnPricing, EnStartup, NavigationKeys + PricingKeys, StartupKeys);
    MergeKeys(EnNavigation + EnPricing + EnStartup, EnAvantgard, NavigationKeys + PricingKeys + StartupKeys, AvantgardKeys);
    MergeKeys(EnNavigation + EnPricing + EnStartup + EnAvantgard, EnQuantum, NavigationKeys + PricingKeys + StartupKeys + AvantgardKeys, QuantumKeys);
    MergeKeys(EnNavigation + EnPricing + EnStartup + EnAvantgard + EnQuantum, EnEnterprise, NavigationKeys + PricingKeys + StartupKeys + AvantgardKeys + QuantumKeys, EnterpriseKeys);
    MergeKeys(EnNavigation + EnPricing + EnStartup + EnAvantgard + EnQuantum + EnEnterprise, EnCommon, NavigationKeys + PricingKeys + StartupKeys + AvantgardKeys + QuantumKeys + EnterpriseKeys, CommonKeys);
  }

  /** The kz table defines exactly the common keys. */
  lemma KzKeys()
    ensures KzTable.Keys == TableKeys
  {
    KzNavigationKeys();
    KzPricingKeys();
    KzStartupKeys();
    KzAvantgardKeys();
    KzQuantumKeys();
    KzEnterpriseKeys();
    KzCommonKeys();
    MergeKeys(KzNavigation, KzPricing, NavigationKeys, PricingKeys);
    MergeKeys(KzNavigation + KzPricing, KzStartup, NavigationKeys + PricingKeys, StartupKeys);
    MergeKeys(KzNavigation + KzPricing + KzStartup, KzAvantgard, NavigationKeys + PricingKeys + StartupKeys, AvantgardKeys);
    MergeKeys(KzNavigation + KzPricing + KzStartup + KzAvantgard, KzQuantum, NavigationKeys + PricingKeys + StartupKeys + AvantgardKeys, QuantumKeys);
    MergeKeys(KzNavigation + KzPricing + KzStartup + KzAvantgard + KzQuantum, KzEnterprise, NavigationKeys + PricingKeys + StartupKeys + AvantgardKeys + QuantumKeys, EnterpriseKeys);
    MergeKeys(KzNavigation + KzPricing + KzStartup + KzAvantgard + KzQuantum + KzEnterprise, KzCommon, NavigationKeys + PricingKeys + StartupKeys + AvantgardKeys + QuantumKeys + EnterpriseKeys, CommonKeys);
  }

  lemma RuNavigationTranslates()
    ensures AllEntriesTranslate(RuNavigation)
  {
  }

  lemma RuPricingTranslates()
    ensures AllEntriesTranslate(RuPricing)
  {
  }

  lemma RuStartupTranslates()
    ensures AllEntriesTranslate(RuStartup)
  {
  }

  lemma RuAvantgardTranslates()
    ensures AllEntriesTranslate(RuAvantgard)
  {
  }

  lemma RuQuantumTranslates()
    ensures AllEntriesTranslate(RuQuantum)
  {
  }

  lemma RuEnterpriseTranslates()
    ensures AllEntriesTranslate(RuEnterprise)
  {
  }

  lemma RuCommonTranslates()
    ensures AllEntriesTranslate(RuCommon)
  {
  }

  lemma EnNavigationTranslates()
    ensures AllEntriesTranslate(EnNavigation)
  {
  }

  lemma EnPricingTranslates()
    ensures AllEntriesTranslate(EnPricing)
  {
  }

  lemma EnStartupTranslates()
    ensures AllEntriesTranslate(EnStartup)
  {
  }

  lemma EnAvantgardTranslates()
    ensures AllEntriesTranslate(EnAvantgard)
  {
  }

  lemma EnQuantumTranslates()
    ensures AllEntriesTranslate(EnQuantum)
  {
  }

  lemma EnEnterpriseTranslates()
    ensures AllEntriesTranslate(EnEnterprise)
  {
  }

  lemma EnCommonTranslates()
    ensures AllEntriesTranslate(EnCommon)
  {
  }

  lemma KzNavigationTranslates()
    ensures AllEntriesTranslate(KzNavigation)
  {
  }

  lemma KzPricingTranslates()
    ensures AllEntriesTranslate(KzPricing)
  {
  }

  lemma KzStartupTranslates()
    ensures AllEntriesTranslate(KzStartup)
  {
  }

  lemma KzAvantgardTranslates()
    ensures AllEntriesTranslate(KzAvantgard)
  {
  }

  lemma KzQuantumTranslates()
    ensures AllEntriesTranslate(KzQuantum)
  {
  }

  lemma KzEnterpriseTranslates()
    ensures AllEntriesTranslate(KzEnterprise)
  {
  }

  lemma KzCommonTranslates()
    ensures AllEntriesTranslate(KzCommon)
  {
  }

  /** Every entry of the ru table is a real translation. */
  lemma RuTableTranslates()
    ensures AllEntriesTranslate(RuTable)
  {
    RuNavigationTranslates();
    RuPricingTranslates();
    RuStartupTranslates();
    RuAvantgardTranslates();
    RuQuantumTranslates();
    RuEnterpriseTranslates();
    RuCommonTranslates();
    MergeTranslates(RuNavigation, RuPricing);
    MergeTranslates(RuNavigation + RuPricing, RuStartup);
    MergeTranslates(RuNavigation + RuPricing + RuStartup, RuAvantgard);
    MergeTranslates(RuNavigation + RuPricing + RuStartup + RuAvantgard, RuQuantum);
    MergeTranslates(RuNavigation + RuPricing + RuStartup + RuAvantgard + RuQuantum, RuEnterprise);
    MergeTranslates(RuNavigation + RuPricing + RuStartup + RuAvantgard + RuQuantum + RuEnterprise, RuCommon);
  }

  /** Every entry of the en table is a real translation. */
  lemma EnTableTranslates()
    ensures AllEntriesTranslate(EnTable)
  {
    EnNavigationTranslates();
    EnPricingTranslates();
    EnStartupTranslates();
    EnAvantgardTranslates();
    EnQuantumTranslates();
    EnEnterpriseTranslates();
    EnCommonTranslates();
    MergeTranslates(EnNavigation, EnPricing);
    MergeTranslates(EnNavigation + EnPricing, EnStartup);
    MergeTranslates(EnNavigation + EnPricing + EnStartup, EnAvantgard);
    MergeTranslates(EnNavigation + EnPricing + EnStartup + EnAvantgard, EnQuantum);
    MergeTranslates(EnNavigation + EnPricing + EnStartup + EnAvantgard + EnQuantum, EnEnterprise);
    MergeTranslates(EnNavigation + EnPricing + EnStartup + EnAvantgard + EnQuantum + EnEnterprise, EnCommon);
  }

  /** Every entry of the kz table is a real translation. */
  lemma KzTableTranslates()
    ensures AllEntriesTranslate(KzTable)
  {
    KzNavigationTranslates();
    KzPricingTranslates();
    KzStartupTranslates();
    KzAvantgardTranslates();
    KzQuantumTranslates();
    KzEnterpriseTranslates();
    KzCommonTranslates();
    MergeTranslates(KzNavigation, KzPricing);
    MergeTranslates(KzNavigation + KzPricing, KzStartup);
    MergeTranslates(KzNavigation + KzPricing + KzStartup, KzAvantgard);
    MergeTranslates(KzNavigation + KzPricing + KzStartup + KzAvantgard, KzQuantum);
    MergeTranslates(KzNavigation + KzPricing + KzStartup + KzAvantgard + KzQuantum, KzEnterprise);
    MergeTranslates(KzNavigation + KzPricing + KzStartup + KzAvantgard + KzQuantum + KzEnterprise, KzCommon);
  }

  /** With the ru table a key falls back exactly when it is not one of the common keys. */
  lemma RuFallsBackIffAbsent(key: string)
    ensures FallsBack(RuTable, key) <==> key !in TableKeys
  {
    RuKeys();
    RuTableTranslates();
    FallsBackOnlyWhenAbsent(RuTable, key);
  }

  /** With the en table a key falls back exactly when it is not one of the common keys. */
  lemma EnFallsBackIffAbsent(key: string)
    ensures FallsBack(EnTable, key) <==> key !in TableKeys
  {
    EnKeys();
    EnTableTranslates();
    FallsBackOnlyWhenAbsent(EnTable, key);
  }

  /** With the kz table a key falls back exactly when it is not one of the common keys. */
  lemma KzFallsBackIffAbsent(key: string)
    ensures FallsBack(KzTable, key) <==> key !in TableKeys
  {
    KzKeys();
    KzTableTranslates();
    FallsBackOnlyWhenAbsent(KzTable, key);
  }
}

=== FILE: wrappers.dfy ===
/** Failure-carrying return types used where the modelled code can throw or find nothing. */
module Wrappers {

  /** A value that may be absent (JavaScript's `undefined`). */
  datatype Option<+T> = None | Some(value: T)

  /** Either a value or the message of the error the modelled code would throw. */
  datatype Result<+R> = Success(value: R) | Failure(error: string)
}
